=== FILE: README.md ===
# Rate limiters in Dafny

A model of the six rate limiters of the `ratelimiter` package: fixed window counter, sliding
window log, sliding window counter, token bucket, leaky bucket and fixed-window token bucket.
Each answers `shouldAllowRequest(customerId, timestamp)`. Here every limiter is a pure step
`(limiter, customer, timestamp) -> (limiter', allowed)` over unbounded integer time.

Layout:

- `keyed_store.dfy` (module `KeyedStore`) holds the shared machinery:
  - the customer id -> state map (`Apply` writes only the caller's entry);
  - replaying a sequence of calls (`Run`) and one customer's timestamps (`RunKey`);
  - the generic lemma that customers do not influence each other (`KeysIndependent`);
  - the trace constructions the test files use (`Lockstep`, `Solo`).
- `java_int.dfy` (module `JavaInt`) holds the Java `int` arithmetic the code uses, where it
  differs from Dafny's or is a library call:
  - `Div` is `/` truncating toward zero;
  - `Mul` is the product of two run-time values, kept as repeated addition so proofs stay
    linear. `MulIsProduct` shows it is the product.
  - `Min` is `Math.min` and `Max` is `Math.max`.
- `windows.dfy` (module `Windows`) holds the fixed windows both fixed-window limiters use:
  `Aligned` window starts, the window `WindowOf` a timestamp, and the facts relating them.
- One module per limiter:
  - `SlidingWindowLog`, `SlidingWindowCounter`, `TokenBucket` and `LeakyBucket` keep only
    per-customer state. Each is a per-customer `Decide` lifted to the map.
  - `FixedWindowCounter` and `FixedWindowTokenBucket` also keep one window start shared by
    the whole limiter, in a `Limiter` record.

The two test classes are replayed as lemmas: `FixedWindowCounter.InterleavedCustomers`,
`SeparateCustomers`, and the same two in `LeakyBucket`.

Behaviour of the code worth knowing:

- Token bucket: refill is `(timestamp - lastRefillTime) * refillRate`, capped at
  `maxTokens`; there is no refill window.
- Leaky bucket: an admitted call restamps `lastUpdatedAt` with its timestamp
  (`LeakyBucketRateLimiter.java` line 32), while a denied call does not. So while every
  call is admitted (the bucket stays below capacity), a customer calling less than one
  `leakWindow` apart never leaks (`LeakyBucket.CloseCallsNeverLeak`). Once the bucket is
  full, denied calls leave the stamp alone and the bucket leaks again a `leakWindow` after
  the last admit.
- Sliding window counter: the weight of the previous window uses the elapsed time measured
  before the rollover, not after it. See Findings.
- Fixed window counter: the window start is one field for all customers, moved toward
  every call, backwards too. See Findings.
- Fixed-window token bucket: the window start is one field for all customers, moved
  forward by any customer's call; a customer's tokens are read for that shared window, not
  for the window of its own timestamp. See Findings.
- Fixed-window token bucket: the cleanup of expired windows acts on the stored map of an
  existing customer. So it persists even when the call is denied, and the model stores it.

## Model

| member | source | states |
|---|---|---|
| JavaInt.Div | src/main/java/ratelimiter/FixedWindowCounterRateLimiter.java:21 | Java's quotient by a positive divisor rounds toward zero: the remainder is in `[0, b)` for a non-negative dividend and in `(-b, 0]` for a negative one |
| SlidingWindowLog.Evict | src/main/java/ratelimiter/SlidingWindowLogRateLimiter.java:35-36 | eviction never grows the log and leaves a log whose head is no older than the cutoff |
| SlidingWindowLog.EvictIsSuffix | src/main/java/ratelimiter/SlidingWindowLogRateLimiter.java:35-36 | eviction keeps a suffix of the log, and every entry it drops is older than the cutoff |
| SlidingWindowLog.EvictFront | src/main/java/ratelimiter/SlidingWindowLogRateLimiter.java:35-36 | the poll-while-old loop over the queue computes the eviction |
| SlidingWindowLog.Step | src/main/java/ratelimiter/SlidingWindowLogRateLimiter.java:24-44 | a new customer is admitted with log `[t]`; otherwise the call is admitted iff the evicted log is shorter than the limit, and the log becomes the evicted log with `t` appended on admit, unchanged otherwise; other customers are untouched |
| SlidingWindowLog.FirstCallAdmitted | src/main/java/ratelimiter/SlidingWindowLogRateLimiter.java:25-31 | the first call of a customer is admitted whatever the limit and stores exactly `[t]` |
| SlidingWindowLog.LengthBound | src/main/java/ratelimiter/SlidingWindowLogRateLimiter.java:25-40 | with a limit of at least one, no call makes any log longer than the limit |
| SlidingWindowLog.EvictSortedIsRecent | src/main/java/ratelimiter/SlidingWindowLogRateLimiter.java:35-36 | on a sorted log eviction keeps exactly the entries at or after the cutoff, an entry equal to `t - windowSize` included |
| SlidingWindowLog.TrailingWindowBound | src/main/java/ratelimiter/SlidingWindowLogRateLimiter.java:25-43 | with a limit of at least one, for a customer's non-decreasing timestamps the final log is exactly its admitted timestamps no older than the last call minus `windowSize`, at most `maxAllowedRequests` of them |
| SlidingWindowLog.CustomersIndependent | src/main/java/ratelimiter/SlidingWindowLogRateLimiter.java:25-33 | in any interleaving a customer's outcomes are those of its own calls replayed alone |
| SlidingWindowCounter.Rollover | src/main/java/ratelimiter/SlidingWindowCounterRateLimiter.java:23-31 | within a window nothing changes; after a full window the current count restarts at 0, the previous count is the old current count iff fewer than two windows passed, and the new start is past the old one with the call inside the new window |
| SlidingWindowCounter.Step | src/main/java/ratelimiter/SlidingWindowCounterRateLimiter.java:18-44 | the caller always has an entry afterwards and no other customer's entry changes |
| SlidingWindowCounter.NewCustomerStartsEmpty | src/main/java/ratelimiter/SlidingWindowCounterRateLimiter.java:19-21 | a customer seen for the first time behaves exactly like one stored as (0, 0, 0) |
| SlidingWindowCounter.AdmitIffWeightedBelowLimit | src/main/java/ratelimiter/SlidingWindowCounterRateLimiter.java:35-43 | with a limit of at least one, the truncated weighted count is below the limit iff `current*ws + previous*(ws - elapsed) < max*ws`; admit adds one to the current count only, deny keeps the rolled-over counter |
| SlidingWindowCounter.StartStaysAligned | src/main/java/ratelimiter/SlidingWindowCounterRateLimiter.java:26 | the window start stays a multiple of `windowSize` |
| SlidingWindowCounter.CallLandsInCurrentWindow | src/main/java/ratelimiter/SlidingWindowCounterRateLimiter.java:23-31 | a call at or after the start ends inside the current window, and the start never moves back |
| SlidingWindowCounter.StepKeepsInv | src/main/java/ratelimiter/SlidingWindowCounterRateLimiter.java:35-39 | with a limit of at least one, both counts stay in `[0, max]` and the start stays aligned |
| SlidingWindowCounter.RunKeepsInv | src/main/java/ratelimiter/SlidingWindowCounterRateLimiter.java:18-44 | with a limit of at least one, the same bound holds after any sequence of calls |
| SlidingWindowCounter.RolloverAlwaysAdmitted | src/main/java/ratelimiter/SlidingWindowCounterRateLimiter.java:23-38 | with a limit of at least one, every call that rolls the window over is admitted, since its previous-window weight is not positive |
| SlidingWindowCounter.BoundaryCallIgnoresFullPreviousWindow | src/main/java/ratelimiter/SlidingWindowCounterRateLimiter.java:23-40 | a customer that used its whole window is admitted at the first instant of the next one as written, and denied with the weight measured from the new start |
| SlidingWindowCounter.StepIntended | src/main/java/ratelimiter/SlidingWindowCounterRateLimiter.java:18-44 | the corrected call writes only the caller's entry |
| SlidingWindowCounter.IntendedWeighsPrevious | src/main/java/ratelimiter/SlidingWindowCounterRateLimiter.java:35-38 | with the corrected weight and a limit of at least one, the previous window weighs between just above 0 and one full window, and the call is admitted iff the exact weighted count is below the limit |
| SlidingWindowCounter.IntendedDeniesRightAfterFullWindow | src/main/java/ratelimiter/SlidingWindowCounterRateLimiter.java:35-38 | with the corrected weight and a limit of at least one, a call at the start of the window after a full one is denied |
| SlidingWindowCounter.IntendedKeepsInv | src/main/java/ratelimiter/SlidingWindowCounterRateLimiter.java:35-39 | with a limit of at least one, the corrected call keeps both counts in `[0, max]` and the start aligned |
| SlidingWindowCounter.CustomersIndependent | src/main/java/ratelimiter/SlidingWindowCounterRateLimiter.java:19-21 | in any interleaving a customer's outcomes are those of its own calls replayed alone |
| TokenBucket.Refill | src/main/java/ratelimiter/TokenBucketRateLimiter.java:40-59 | a new customer gets a full bucket stamped now; a non-positive refill changes nothing; a positive one stamps now and holds the old tokens plus the refill, capped at `maxTokens` |
| TokenBucket.Decide | src/main/java/ratelimiter/TokenBucketRateLimiter.java:24-38 | admitted iff the refilled bucket has a token; admit spends exactly one and keeps the refill stamp, deny keeps the refilled bucket |
| TokenBucket.Step | src/main/java/ratelimiter/TokenBucketRateLimiter.java:24-38 | the caller has a bucket afterwards and no other customer's bucket changes |
| TokenBucket.MapStaysSingleEntry | src/main/java/ratelimiter/TokenBucketRateLimiter.java:27-57 | the map left by the remove-then-put of a refill and the put of an admit has exactly one entry, and it is the new bucket's stamp and tokens |
| TokenBucket.NewCustomerGetsFullBucket | src/main/java/ratelimiter/TokenBucketRateLimiter.java:41-45 | a new customer starts with `maxTokens` stamped now, and is admitted iff `maxTokens` is positive |
| TokenBucket.StepKeepsInv | src/main/java/ratelimiter/TokenBucketRateLimiter.java:32-54 | tokens stay in `[0, maxTokens]` |
| TokenBucket.RunKeepsInv | src/main/java/ratelimiter/TokenBucketRateLimiter.java:24-59 | tokens stay in `[0, maxTokens]` over any sequence of calls |
| TokenBucket.BurstDrains | src/main/java/ratelimiter/TokenBucketRateLimiter.java:32-37 | calls at an instant that refills nothing are admitted exactly while tokens remain |
| TokenBucket.FreshBurst | src/main/java/ratelimiter/TokenBucketRateLimiter.java:24-45 | a new customer calling `n` times at one instant is admitted for its first `maxTokens` calls and denied after |
| TokenBucket.AdmitsWithinBudget | src/main/java/ratelimiter/TokenBucketRateLimiter.java:51-57 | for a new customer's non-decreasing calls, from its first call `t0` to its last `tn`, at most `maxTokens + (tn - t0) * refillRate` calls are admitted |
| TokenBucket.CustomersIndependent | src/main/java/ratelimiter/TokenBucketRateLimiter.java:25-27 | in any interleaving a customer's outcomes, and the bucket it is left with, are those of its own calls replayed alone |
| LeakyBucket.Leak | src/main/java/ratelimiter/LeakyBucketRateLimiter.java:40-57 | a new customer starts empty stamped now; nothing leaked leaves the bucket; a positive leak stamps now and lowers the level by the leak, not below zero |
| LeakyBucket.Decide | src/main/java/ratelimiter/LeakyBucketRateLimiter.java:24-37 | admitted iff the leaked level is below capacity; admit raises it by one and restamps with the call's timestamp, deny keeps the leaked bucket |
| LeakyBucket.Step | src/main/java/ratelimiter/LeakyBucketRateLimiter.java:24-37 | the caller has a bucket afterwards and no other customer's bucket changes |
| LeakyBucket.NothingLeaksAtOnce | src/main/java/ratelimiter/LeakyBucketRateLimiter.java:47-50 | nothing leaks at the instant the bucket was stamped |
| LeakyBucket.OneWindowLeaksRate | src/main/java/ratelimiter/LeakyBucketRateLimiter.java:47-50 | one `leakWindow` after the stamp exactly `leakRate` requests have leaked |
| LeakyBucket.NewCustomerStartsEmpty | src/main/java/ratelimiter/LeakyBucketRateLimiter.java:41-45 | a new customer is admitted iff capacity is positive, and is left at level 1 (or 0) stamped now |
| LeakyBucket.DenyOnlyLeaks | src/main/java/ratelimiter/LeakyBucketRateLimiter.java:31-36 | a denied call changes nothing beyond the leak, and nothing at all when nothing leaked |
| LeakyBucket.StepKeepsInv | src/main/java/ratelimiter/LeakyBucketRateLimiter.java:31-53 | the level stays in `[0, maxRequestCapacity]` |
| LeakyBucket.RunKeepsInv | src/main/java/ratelimiter/LeakyBucketRateLimiter.java:24-57 | the level stays in `[0, maxRequestCapacity]` over any sequence of calls |
| LeakyBucket.BurstFills | src/main/java/ratelimiter/LeakyBucketRateLimiter.java:31-33 | calls at one instant on a bucket stamped then are admitted exactly while the level is below capacity, and leave it full or raised by the calls |
| LeakyBucket.FreshBurst | src/main/java/ratelimiter/LeakyBucketRateLimiter.java:24-45 | a new customer calling `n` times at one instant is admitted for its first `maxRequestCapacity` calls and denied after |
| LeakyBucket.CloseCallsNeverLeak | src/main/java/ratelimiter/LeakyBucketRateLimiter.java:31-33 | while the level plus the number of calls stays within capacity, a customer whose calls come less than one `leakWindow` apart is admitted every time and never leaks: the level counts all of them, stamped with the last call |
| LeakyBucket.FullBucketLeaksAgain | src/main/java/ratelimiter/LeakyBucketRateLimiter.java:24-37 | a denied call keeps the stamp of the last admit: with capacity 1 leaking one per 10, calls at 0, 5 and 10, each less than a `leakWindow` apart, are admitted, denied, then admitted after a leak |
| LeakyBucket.InterleavedCustomerTrace | src/test/java/ratelimiter/LeakyBucketRateLimiterTest.java:16-38 | one customer's calls at 11, six at 12 and one at 13 give admit ×6, deny, admit |
| LeakyBucket.InterleavedCustomers | src/test/java/ratelimiter/LeakyBucketRateLimiterTest.java:16-38 | two customers calling in lockstep at those timestamps each see that trace's outcomes |
| LeakyBucket.SeparateCustomers | src/test/java/ratelimiter/LeakyBucketRateLimiterTest.java:46-53 | after customer 100 at 11, customer 200 calling six times at 12 is admitted five times and denied once |
| LeakyBucket.CustomersIndependent | src/main/java/ratelimiter/LeakyBucketRateLimiter.java:25-29 | in any interleaving a customer's outcomes are those of its own calls replayed alone |
| FixedWindowCounter.AdvanceWindow | src/main/java/ratelimiter/FixedWindowCounterRateLimiter.java:21 | the shared start moves by whole windows: to the window holding a call at or after it, or to the window above a call before it |
| FixedWindowCounter.AdvanceFromAligned | src/main/java/ratelimiter/FixedWindowCounterRateLimiter.java:16-21 | from an aligned start and a later call, the new start is `(t / ws) * ws` |
| FixedWindowCounter.Step | src/main/java/ratelimiter/FixedWindowCounterRateLimiter.java:20-41 | the shared start moves by whole windows toward the call, as `AdvanceWindow` states; an admitted caller has a counter; other customers' counters are untouched |
| FixedWindowCounter.FirstCallAdmitted | src/main/java/ratelimiter/FixedWindowCounterRateLimiter.java:23-26 | a new customer is admitted and stored with count 1 stamped with the new start |
| FixedWindowCounter.ExpiredCounterResets | src/main/java/ratelimiter/FixedWindowCounterRateLimiter.java:30-33 | a counter stamped a whole window before the call restarts at 1 and the call is admitted |
| FixedWindowCounter.FullCounterDenies | src/main/java/ratelimiter/FixedWindowCounterRateLimiter.java:35-37 | a live counter at the limit denies and no counter changes |
| FixedWindowCounter.LiveCounterCounts | src/main/java/ratelimiter/FixedWindowCounterRateLimiter.java:39-40 | any other call on a live counter is admitted and adds exactly one |
| FixedWindowCounter.StepKeepsInv | src/main/java/ratelimiter/FixedWindowCounterRateLimiter.java:23-40 | with a limit of at least one, every count stays in `[1, max]` |
| FixedWindowCounter.RunKeepsInv | src/main/java/ratelimiter/FixedWindowCounterRateLimiter.java:20-41 | with a limit of at least one, every count stays in `[1, max]` over any sequence of calls |
| FixedWindowCounter.StepIntended | src/main/java/ratelimiter/FixedWindowCounterRateLimiter.java:20-41 | the corrected call stamps an admitted caller with its own call's window and writes no other customer |
| FixedWindowCounter.AgreesWhenOrdered | src/main/java/ratelimiter/FixedWindowCounterRateLimiter.java:16-41 | on calls that never go back in time from an aligned start, the limiter as written gives the corrected outcomes and counters, and its start is the latest call's window |
| FixedWindowCounter.IntendedCustomersIndependent | src/main/java/ratelimiter/FixedWindowCounterRateLimiter.java:23-40 | with the corrected window, a customer's outcomes are those of its own calls replayed alone |
| FixedWindowCounter.DecideInWindow | src/main/java/ratelimiter/FixedWindowCounterRateLimiter.java:28-40 | with the call's own window (corrected) and a limit of at least one, inside one window a call is admitted iff the customer's count for that window is below the limit, and then adds one to it |
| FixedWindowCounter.OneWindowOutcomes | src/main/java/ratelimiter/FixedWindowCounterRateLimiter.java:28-40 | with the call's own window (corrected) and a limit of at least one, a customer calling inside one window with `b` requests already counted has its first `max - b` calls admitted and the rest denied |
| FixedWindowCounter.FreshBurst | src/main/java/ratelimiter/FixedWindowCounterRateLimiter.java:23-40 | with the call's own window (corrected) and a limit of at least one, a new customer's burst at one instant is admitted for its first `max` calls |
| FixedWindowCounter.AtMostMaxPerWindow | src/main/java/ratelimiter/FixedWindowCounterRateLimiter.java:21-40 | as written, with a limit of at least one, on calls that never go back in time, a customer is admitted at most `max - b` times inside one window |
| FixedWindowCounter.InterleavedCustomerTrace | src/test/java/ratelimiter/FixedWindowCounterRateLimiterTest.java:16-35 | with the call's own window (corrected), one customer's calls at 11, 12, 13, 14, 18, 19, 20 give admit ×5, deny, admit |
| FixedWindowCounter.InterleavedCustomers | src/test/java/ratelimiter/FixedWindowCounterRateLimiterTest.java:16-35 | two customers in lockstep at those timestamps on a fresh limiter each see that trace's outcomes |
| FixedWindowCounter.SeparateCustomers | src/test/java/ratelimiter/FixedWindowCounterRateLimiterTest.java:43-50 | after customer 100 at 12, customer 200 calling six times at 12 is admitted five times and denied once |
| FixedWindowCounter.SeparateIntended | src/test/java/ratelimiter/FixedWindowCounterRateLimiterTest.java:43-50 | the corrected limiter gives the same outcomes on that test |
| FixedWindowCounter.SharedStartCouplesCustomers | src/main/java/ratelimiter/FixedWindowCounterRateLimiter.java:21 | one customer's call changes another's outcome: customer 2 at 5 and 15 is admitted twice alone, but denied at 15 after customer 1 called at 100 |
| FixedWindowTokenBucket.NextWindowStart | src/main/java/ratelimiter/FixedWindowTokenBucketRateLimiter.java:27-29 | the start stays put until a call comes a whole window after it, and then becomes the aligned start of that call's window |
| FixedWindowTokenBucket.Cleanup | src/main/java/ratelimiter/FixedWindowTokenBucketRateLimiter.java:53-56 | exactly the windows starting before the current start are dropped, the others keep their counts |
| FixedWindowTokenBucket.Spend | src/main/java/ratelimiter/FixedWindowTokenBucketRateLimiter.java:32-46 | on one customer's map at window `w`: admitted iff a token is left in `w` (a full `maxTokens` when absent), which then drops by exactly one; only `w` and later windows remain, and later windows keep their counts |
| FixedWindowTokenBucket.Step | src/main/java/ratelimiter/FixedWindowTokenBucketRateLimiter.java:25-51 | admitted iff the caller has a token left in the limiter's current (shared) window (a full `maxTokens` when it has no entry); other customers' maps are untouched |
| FixedWindowTokenBucket.SpendsOneToken | src/main/java/ratelimiter/FixedWindowTokenBucketRateLimiter.java:42-46 | an admit spends exactly one token of the current window and a deny none; later windows and other customers keep their counts |
| FixedWindowTokenBucket.DenyKeepsCounts | src/main/java/ratelimiter/FixedWindowTokenBucketRateLimiter.java:40-50 | a denied call changes no count of the current or later windows and only drops the caller's expired windows |
| FixedWindowTokenBucket.CallerHasNoExpiredWindow | src/main/java/ratelimiter/FixedWindowTokenBucketRateLimiter.java:32-45 | after any call the caller's stored map has no window before the current start |
| FixedWindowTokenBucket.InitInv | src/main/java/ratelimiter/FixedWindowTokenBucketRateLimiter.java:17-22 | the fresh limiter satisfies the invariant |
| FixedWindowTokenBucket.StepKeepsInv | src/main/java/ratelimiter/FixedWindowTokenBucketRateLimiter.java:27-44 | the start stays an aligned non-negative multiple and never moves back; stored counts stay in `[0, maxTokens]` |
| FixedWindowTokenBucket.CallerKeepsOneWindow | src/main/java/ratelimiter/FixedWindowTokenBucketRateLimiter.java:40-45 | from a reachable limiter, the caller's stored map holds at most the current window's entry |
| FixedWindowTokenBucket.RunKeepsInv | src/main/java/ratelimiter/FixedWindowTokenBucketRateLimiter.java:25-51 | the invariant holds, and the start never moves back, over any sequence of calls |
| FixedWindowTokenBucket.WindowQuota | src/main/java/ratelimiter/FixedWindowTokenBucketRateLimiter.java:32-46 | before the limiter's current (shared) window ends, each customer with `r` tokens left is admitted for its first `r` calls and denied after, however customers interleave |
| FixedWindowTokenBucket.AtMostMaxTokensPerWindow | src/main/java/ratelimiter/FixedWindowTokenBucketRateLimiter.java:42-46 | from a reachable limiter, no customer is admitted more than `maxTokens` times before the limiter's current (shared) window ends |
| FixedWindowTokenBucket.SharedStartOverAdmits | src/main/java/ratelimiter/FixedWindowTokenBucketRateLimiter.java:27-33 | one customer's call gives another a second quota: with one token per window of 10, customer 2 at 5 and 8 is admitted twice after customer 1 called at 25, but denied at 8 alone |
| Windows.WindowOf | src/main/java/ratelimiter/FixedWindowTokenBucketRateLimiter.java:28 | a call's own window starts at a multiple of the window size no later than the call and less than one window before it |
| Windows.WindowOfIsJavaStart | src/main/java/ratelimiter/FixedWindowTokenBucketRateLimiter.java:28 | for a non-negative timestamp that start is the code's `(timestamp / windowSize) * windowSize` in Java arithmetic |
| FixedWindowTokenBucket.IntendedCustomersIndependent | src/main/java/ratelimiter/FixedWindowTokenBucketRateLimiter.java:25-51 | with the call's own window (corrected), a customer's outcomes and final map are those of its own calls replayed alone |
| FixedWindowTokenBucket.IntendedWindowQuota | src/main/java/ratelimiter/FixedWindowTokenBucketRateLimiter.java:32-46 | with the call's own window (corrected), a customer calling inside one window with `r` tokens left in it is admitted for its first `r` calls and denied after |
| FixedWindowTokenBucket.IntendedKeepsInv | src/main/java/ratelimiter/FixedWindowTokenBucketRateLimiter.java:42-46 | with the call's own window (corrected), stored counts start and stay in `[0, maxTokens]` |
| FixedWindowTokenBucket.IntendedAtMostMaxTokensPerWindow | src/main/java/ratelimiter/FixedWindowTokenBucketRateLimiter.java:27-46 | with the call's own window (corrected), in any interleaving a customer whose calls fall in one window is admitted at most `maxTokens` times |

## Left out

- Concurrency and atomicity: calls are modelled one after another. The code uses plain
  `HashMap` read-then-write sequences with no locking.
- `HashMap`, `LinkedList` and `Queue` mechanics: maps are Dafny `map`s and queues are
  `seq`s. The one aliasing effect that is observable in storage is modelled: the
  fixed-window token bucket's cleanup persists on deny.
- IEEE `double` arithmetic in the sliding window counter's weight: modelled as the exact
  rational value, truncated toward zero as the `(int)` cast does. Rounding of the double
  product is not modelled.
- Java 32-bit overflow: integers are unbounded. This covers `(timestamp - lastRefillTime) *
  refillRate`, `2 * windowSize` and the window arithmetic.
- Constructor validation: the code has none. Positive window sizes and leak windows are
  preconditions. The bounds of the sliding window log, the sliding window counter and the
  fixed window counter need a limit of at least one: at limit 0 the log and the fixed
  window counter still admit a new customer's first call (`SlidingWindowLog.FirstCallAdmitted`,
  `FixedWindowCounter.FirstCallAdmitted`), and the counter's weighted count can go negative
  after a rollover. The token bucket, leaky bucket and fixed window token bucket bounds
  need only a non-negative limit.
- The `RateLimiter` interface beyond its one method, and unbounded memory growth of the
  maps.
- FixedWindowCounter.AtMostMaxPerWindow: stated only for calls that never go back in time.
  As written, the shared window start lets one customer's earlier call change another's
  window (see Findings). For arbitrary orders the per-window bound is proved of the
  corrected limiter (`OneWindowOutcomes`).
- FixedWindowTokenBucket.NextWindowStart: alignment is stated only for non-negative
  timestamps. Every reachable start is non-negative, and a call that moves it comes a
  whole window after it.
- FixedWindowTokenBucket.AtMostMaxTokensPerWindow: the bound is per the limiter's current
  (shared) window, for calls before it ends. It is not a bound per window of a customer's
  own timestamps: another customer's later call moves the shared start, and the customer
  then gets a fresh quota for calls still in its earlier window (see Findings). It also
  assumes `maxTokens >= 0`. With a negative limit no call is admitted, and zero admits is
  more than `maxTokens`.
- FixedWindowTokenBucket.IntendedAtMostMaxTokensPerWindow: stated for a customer whose
  calls all fall in one window, with `maxTokens >= 0`. A customer that returns to an
  earlier window after calling in a later one finds that window's entry cleaned up and
  gets a full quota again, in the corrected limiter as well.

## Findings

| source | as written | input that shows it | evidently intended | confidence | as-written member | corrected member |
|---|---|---|---|---|---|---|
| src/main/java/ratelimiter/SlidingWindowCounterRateLimiter.java:35 | the previous window's weight `1 - elapsed / windowSize` uses `elapsed` measured from the window start before the rollover, so a call that rolls the window over gives the previous window weight zero or less | windowSize 10, limit 5, stored counter (previous 0, current 5, start 0), call at 10: admitted | measure `elapsed` from the rolled-over start, so the previous window still counts fully at the boundary and the call is denied | not executed | SlidingWindowCounter.BoundaryCallIgnoresFullPreviousWindow | SlidingWindowCounter.IntendedDeniesRightAfterFullWindow |
| src/main/java/ratelimiter/FixedWindowCounterRateLimiter.java:21 | one window start for all customers, moved toward every caller's timestamp with truncating division, so a customer's counter stamp depends on other customers' calls | limit 1, window 10, fresh limiter: customer 1 at 100, then customer 2 at 5 and at 15; customer 2 is denied at 15 (its counter was stamped 10), but admitted at 15 when calling alone | each call's window is the one holding its own timestamp, so customers are independent | not executed | FixedWindowCounter.SharedStartCouplesCustomers | FixedWindowCounter.IntendedCustomersIndependent |
| src/main/java/ratelimiter/FixedWindowTokenBucketRateLimiter.java:27-33 | one window start for all customers, moved forward to the window of whichever customer calls a whole window later; every call reads its tokens for that shared window, so a customer still calling in an earlier window spends from a window it has not used | window 10, one token, fresh limiter: customer 2 at 5 is admitted, customer 1 at 25 moves the start to 20, customer 2 at 8 is admitted again inside [0, 10); alone, customer 2 is denied at 8 | each call spends from the window holding its own timestamp, so a customer calling inside one window is admitted at most `maxTokens` times whatever other customers do | not executed | FixedWindowTokenBucket.SharedStartOverAdmits | FixedWindowTokenBucket.IntendedAtMostMaxTokensPerWindow |

=== FILE: fixed_window_counter.dfy ===
/** Fixed window counter limiter: each customer has a counter of the requests admitted in
    its window, stamped with that window's start. The window start itself is one field
    shared by the whole limiter, moved by whole windows towards every caller's timestamp
    with Java's truncating division. */
module FixedWindowCounter {
  import opened KeyedStore
  import JavaInt
  import opened Windows

  datatype Config = Config(maxAllowedRequests: int, windowSize: int)

  /** A customer's counter: the requests admitted so far and the window start it was last
      written in. */
  datatype WindowCounter = WindowCounter(ongoingRequestCount: int, lastUpdateTime: int)

  /** The limiter-wide window start and the customer id -> counter map. */
  datatype Limiter = Limiter(currentWindowStart: int, counters: map<int, WindowCounter>)

  /** A fresh limiter: window start 0, no customers. */
  function Init(): Limiter
  {
    Limiter(0, map[])
  }

  /** `FixedWindowCounterRateLimiter.java` line 21: the shared window start moves by
      `(timestamp - start) / windowSize` whole windows, the quotient truncated toward zero.
      A call at or after the start lands in the window that begins at the new start; a call
      before it leaves the new start in the window above the call. Either way the start
      moves by whole windows. */
  function AdvanceWindow(cfg: Config, start: int, t: int): (r: int)
    requires cfg.windowSize > 0
    ensures t >= start ==> r <= t < r + cfg.windowSize
    ensures t < start ==> t <= r < t + cfg.windowSize
    ensures r % cfg.windowSize == start % cfg.windowSize
  {
    var q := JavaInt.Div(t - start, cfg.windowSize);
    JavaInt.MulIsProduct(q, cfg.windowSize);
    JavaInt.ModAddMultiple(start, q, cfg.windowSize);
    start + JavaInt.Mul(q, cfg.windowSize)
  }

  /** From an aligned start and a call no earlier than it, the new start is the start of
      the call's window. */
  lemma AdvanceFromAligned(cfg: Config, start: int, t: int)
    requires cfg.windowSize > 0 && Aligned(cfg.windowSize, start) && start <= t
    ensures AdvanceWindow(cfg, start, t) == WindowOf(cfg.windowSize, t)
  {
    WindowOfUnique(cfg.windowSize, AdvanceWindow(cfg, start, t), t);
  }

  /** The per-customer part of a call, once the window start `w` is known: a new customer,
      or one whose stamp is a whole window old, restarts at one admitted request; a full
      counter denies and stays as it was; otherwise the count goes up by one and is
      stamped `w`. */
  function Decide(cfg: Config, w: int, e: Option<WindowCounter>, t: int): (WindowCounter, bool)
  {
    match e
    case None => (WindowCounter(1, w), true)
    case Some(c) =>
      if c.lastUpdateTime + cfg.windowSize <= t then (WindowCounter(1, w), true)
      else if c.ongoingRequestCount == cfg.maxAllowedRequests then (c, false)
      else (WindowCounter(c.ongoingRequestCount + 1, w), true)
  }

  /** `shouldAllowRequest(customerId, timestamp)`: advance the shared window start, then
      decide for the caller; a denied call writes nothing. */
  function Step(cfg: Config, lim: Limiter, k: int, t: int): (r: (Limiter, bool))
    requires cfg.windowSize > 0
    ensures r.0.currentWindowStart == AdvanceWindow(cfg, lim.currentWindowStart, t)
    ensures r.1 ==> k in r.0.counters
    ensures forall j :: j != k ==> Lookup(r.0.counters, j) == Lookup(lim.counters, j)
  {
    var w := AdvanceWindow(cfg, lim.currentWindowStart, t);
    var (c, ok) := Decide(cfg, w, Lookup(lim.counters, k), t);
    (Limiter(w, if ok then lim.counters[k := c] else lim.counters), ok)
  }

  function Stepper(cfg: Config): (Limiter, Call) -> (Limiter, bool)
    requires cfg.windowSize > 0
  {
    (lim: Limiter, c: Call) => Step(cfg, lim, c.key, c.time)
  }

  /** The first call of a customer is admitted and starts its counter at one, stamped with
      the new window start. */
  lemma FirstCallAdmitted(cfg: Config, lim: Limiter, k: int, t: int)
    requires cfg.windowSize > 0 && k !in lim.counters
    ensures var (lim', ok) := Step(cfg, lim, k, t);
      ok && lim'.counters == lim.counters[k := WindowCounter(1, lim'.currentWindowStart)]
  {
  }

  /** A counter stamped a whole window or more before the call restarts at one and the call
      is admitted, whatever the count was. */
  lemma ExpiredCounterResets(cfg: Config, lim: Limiter, k: int, t: int)
    requires cfg.windowSize > 0 && k in lim.counters
    requires lim.counters[k].lastUpdateTime + cfg.windowSize <= t
    ensures var (lim', ok) := Step(cfg, lim, k, t);
      ok && lim'.counters == lim.counters[k := WindowCounter(1, lim'.currentWindowStart)]
  {
  }

  /** A live counter at the limit denies the call, and no counter changes. */
  lemma FullCounterDenies(cfg: Config, lim: Limiter, k: int, t: int)
    requires cfg.windowSize > 0 && k in lim.counters
    requires t < lim.counters[k].lastUpdateTime + cfg.windowSize
    requires lim.counters[k].ongoingRequestCount == cfg.maxAllowedRequests
    ensures var (lim', ok) := Step(cfg, lim, k, t);
      !ok && lim'.counters == lim.counters
  {
  }

  /** Any other call on a live counter is admitted and adds exactly one to it. */
  lemma LiveCounterCounts(cfg: Config, lim: Limiter, k: int, t: int)
    requires cfg.windowSize > 0 && k in lim.counters
    requires t < lim.counters[k].lastUpdateTime + cfg.windowSize
    requires lim.counters[k].ongoingRequestCount != cfg.maxAllowedRequests
    ensures var (lim', ok) := Step(cfg, lim, k, t);
      && ok
      && lim'.counters == lim.counters[k := WindowCounter(lim.counters[k].ongoingRequestCount + 1, lim'.currentWindowStart)]
  {
  }

  /** Every stored count is between one and the limit. */
  predicate Inv(cfg: Config, lim: Limiter)
  {
    forall j :: j in lim.counters ==> 1 <= lim.counters[j].ongoingRequestCount <= cfg.maxAllowedRequests
  }

  /** With at least one allowed request, every call keeps every count within `[1, max]`. */
  lemma StepKeepsInv(cfg: Config, lim: Limiter, k: int, t: int)
    requires cfg.windowSize > 0 && cfg.maxAllowedRequests >= 1
    requires Inv(cfg, lim)
    ensures Inv(cfg, Step(cfg, lim, k, t).0)
  {
  }

  /** Replaying any calls keeps every count within `[1, max]`. */
  lemma {:induction false} RunKeepsInv(cfg: Config, lim: Limiter, calls: seq<Call>)
    requires cfg.windowSize > 0 && cfg.maxAllowedRequests >= 1
    requires Inv(cfg, lim)
    ensures Inv(cfg, Run(Stepper(cfg), lim, calls).0)
    decreases |calls|
  {
    if calls != [] {
      StepKeepsInv(cfg, lim, calls[0].key, calls[0].time);
      RunKeepsInv(cfg, Step(cfg, lim, calls[0].key, calls[0].time).0, calls[1..]);
    }
  }

  /** Calls whose timestamps never go back in time, none before `lo`. */
  predicate Ordered(lo: int, calls: seq<Call>)
    decreases |calls|
  {
    calls == [] || (lo <= calls[0].time && Ordered(calls[0].time, calls[1..]))
  }

  /** The window alignment the limiter evidently intends: each call's window is the one
      holding its timestamp, computed from the timestamp alone, so the limiter is a plain
      per-customer decision. */
  function DecideIntended(cfg: Config, e: Option<WindowCounter>, t: int): (WindowCounter, bool)
    requires cfg.windowSize > 0
  {
    Decide(cfg, WindowOf(cfg.windowSize, t), e, t)
  }

  function IntendedDecider(cfg: Config): (Option<WindowCounter>, int) -> (WindowCounter, bool)
    requires cfg.windowSize > 0
  {
    (e: Option<WindowCounter>, t: int) => DecideIntended(cfg, e, t)
  }

  /** The corrected call: the customer's counter is stamped with its own call's window, and
      nothing is shared between customers. */
  function StepIntended(cfg: Config, counters: map<int, WindowCounter>, k: int, t: int): (r: (map<int, WindowCounter>, bool))
    requires cfg.windowSize > 0
    ensures r.1 ==> k in r.0 && r.0[k].lastUpdateTime <= t < r.0[k].lastUpdateTime + cfg.windowSize
    ensures forall j :: j != k ==> Lookup(r.0, j) == Lookup(counters, j)
  {
    Apply(IntendedDecider(cfg), counters, k, t)
  }

  /** On calls that never go back in time, starting from an aligned window start (the fresh
      limiter's 0 among them), the limiter as written gives the corrected per-customer
      outcomes and counters, and its shared window start is the latest call's window. */
  lemma {:induction false} AgreesWhenOrdered(cfg: Config, lim: Limiter, calls: seq<Call>)
    requires cfg.windowSize > 0
    requires Aligned(cfg.windowSize, lim.currentWindowStart) && Ordered(lim.currentWindowStart, calls)
    ensures var (lim', outs) := Run(Stepper(cfg), lim, calls);
      var (counters', outs') := Run(Lifted(IntendedDecider(cfg)), lim.counters, calls);
      && outs == outs'
      && lim'.counters == counters'
      && (calls != [] ==> lim'.currentWindowStart == WindowOf(cfg.windowSize, calls[|calls| - 1].time))
    decreases |calls|
  {
    if calls != [] {
      var c, rest := calls[0], calls[1..];
      AdvanceFromAligned(cfg, lim.currentWindowStart, c.time);
      var w := WindowOf(cfg.windowSize, c.time);
      var (lim1, ok) := Step(cfg, lim, c.key, c.time);
      assert lim1.currentWindowStart == w;
      if !ok {
        assert lim.counters[c.key := lim.counters[c.key]] == lim.counters;
      }
      assert (lim1.counters, ok) == Apply(IntendedDecider(cfg), lim.counters, c.key, c.time);
      assert Ordered(w, rest);
      AgreesWhenOrdered(cfg, lim1, rest);
      if rest != [] {
        assert calls[|calls| - 1] == rest[|rest| - 1];
      }
    }
  }

  /** The corrected limiter's customers do not influence each other: a customer's outcomes
      in any interleaving are those of its own calls replayed alone. */
  lemma IntendedCustomersIndependent(cfg: Config, counters: map<int, WindowCounter>, calls: seq<Call>, k: int)
    requires cfg.windowSize > 0
    ensures OutcomesFor(calls, Run(Lifted(IntendedDecider(cfg)), counters, calls).1, k)
         == RunKey(IntendedDecider(cfg), Lookup(counters, k), TimesFor(calls, k)).1
  {
    KeysIndependent(IntendedDecider(cfg), counters, calls, k);
  }

  /** The count an entry holds for window `w`: its count when stamped `w`, none otherwise. */
  function CountIn(e: Option<WindowCounter>, w: int): int
  {
    if e.Some? && e.value.lastUpdateTime == w then e.value.ongoingRequestCount else 0
  }

  /** An entry the corrected limiter can hold when window `w` begins: none, or a counter
      stamped with a window start no later than `w` and counting no more than the limit. */
  predicate Settled(cfg: Config, e: Option<WindowCounter>, w: int)
    requires cfg.windowSize > 0
  {
    e.None? || (Aligned(cfg.windowSize, e.value.lastUpdateTime) && e.value.lastUpdateTime <= w
                && e.value.ongoingRequestCount <= cfg.maxAllowedRequests)
  }

  /** Every timestamp of `ts` falls in the window that starts at `w`. */
  predicate InWindow(cfg: Config, w: int, ts: seq<int>)
    requires cfg.windowSize > 0
  {
    forall i :: 0 <= i < |ts| ==> WindowOf(cfg.windowSize, ts[i]) == w
  }

  /** One corrected call inside window `w`: the customer's count for `w` is the count
      stamped `w` if there is one and zero otherwise (an older counter is reset), the call
      is admitted exactly when that count is below the limit, and then adds one to it. */
  lemma DecideInWindow(cfg: Config, e: Option<WindowCounter>, w: int, t: int)
    requires cfg.windowSize > 0 && cfg.maxAllowedRequests >= 1
    requires Settled(cfg, e, w) && WindowOf(cfg.windowSize, t) == w
    ensures var (v, ok) := DecideIntended(cfg, e, t);
      && Settled(cfg, Some(v), w) && v.lastUpdateTime == w
      && (ok <==> CountIn(e, w) < cfg.maxAllowedRequests)
      && v.ongoingRequestCount == CountIn(e, w) + (if ok then 1 else 0)
  {
    if e.Some? && e.value.lastUpdateTime < w {
      AlignedApart(cfg.windowSize, e.value.lastUpdateTime, w);
    }
  }

  /** What replaying `n` calls inside window `w` from `e` leaves as entry `e'` and
      outcomes `outs`: the count for `w` has grown by one per call up to the limit,
      exactly the calls that found it below the limit were admitted, and after any call
      the entry is stamped `w`. */
  predicate WindowFacts(cfg: Config, e: Option<WindowCounter>, w: int, n: nat, e': Option<WindowCounter>, outs: seq<bool>)
    requires cfg.windowSize > 0
  {
    && Settled(cfg, e', w)
    && CountIn(e', w) == JavaInt.Min(CountIn(e, w) + n, cfg.maxAllowedRequests)
    && CountIn(e', w) == CountIn(e, w) + Admits(outs)
    && outs == seq(n, i => CountIn(e, w) + i < cfg.maxAllowedRequests)
    && (n > 0 ==> e'.Some? && e'.value.lastUpdateTime == w)
  }

  ghost predicate WindowTrace(cfg: Config, e: Option<WindowCounter>, w: int, ts: seq<int>)
    requires cfg.windowSize > 0
  {
    var (e', outs) := RunKeyBack(IntendedDecider(cfg), e, ts);
    WindowFacts(cfg, e, w, |ts|, e', outs)
  }

  /** One more call inside the window keeps the facts. */
  lemma WindowFactsSnoc(cfg: Config, e: Option<WindowCounter>, w: int, n: nat, e1: Option<WindowCounter>, o1: seq<bool>, t: int)
    requires cfg.windowSize > 0 && cfg.maxAllowedRequests >= 1
    requires WindowFacts(cfg, e, w, n, e1, o1) && WindowOf(cfg.windowSize, t) == w
    ensures var (v, ok) := DecideIntended(cfg, e1, t);
      WindowFacts(cfg, e, w, n + 1, Some(v), o1 + [ok])
  {
    var (v, ok) := DecideIntended(cfg, e1, t);
    DecideInWindow(cfg, e1, w, t);
    var b, m, o := CountIn(e, w), cfg.maxAllowedRequests, o1 + [ok];
    assert ok <==> b + n < m;
    assert Admits(o) == Admits(o1) + (if ok then 1 else 0) by {
      assert o[..|o1|] == o1;
    }
    assert o == seq(n + 1, i => b + i < m) by {
      assert o1 == seq(n, i => b + i < m);
    }
  }

  lemma WindowTraceSnoc(cfg: Config, e: Option<WindowCounter>, w: int, pre: seq<int>, t: int)
    requires cfg.windowSize > 0 && cfg.maxAllowedRequests >= 1
    requires WindowTrace(cfg, e, w, pre) && WindowOf(cfg.windowSize, t) == w
    ensures WindowTrace(cfg, e, w, pre + [t])
  {
    var (e1, o1) := RunKeyBack(IntendedDecider(cfg), e, pre);
    var (v, ok) := DecideIntended(cfg, e1, t);
    assert (pre + [t])[..|pre|] == pre;
    assert RunKeyBack(IntendedDecider(cfg), e, pre + [t]) == (Some(v), o1 + [ok]);
    WindowFactsSnoc(cfg, e, w, |pre|, e1, o1, t);
  }

  lemma {:induction false} WindowTraceHolds(cfg: Config, e: Option<WindowCounter>, w: int, ts: seq<int>)
    requires cfg.windowSize > 0 && cfg.maxAllowedRequests >= 1
    requires Settled(cfg, e, w) && InWindow(cfg, w, ts)
    ensures WindowTrace(cfg, e, w, ts)
    decreases |ts|
  {
    if ts == [] {
      assert RunKeyBack(IntendedDecider(cfg), e, ts) == (e, []);
    } else {
      var pre := ts[..|ts| - 1];
      assert ts == pre + [ts[|ts| - 1]];
      WindowTraceHolds(cfg, e, w, pre);
      WindowTraceSnoc(cfg, e, w, pre, ts[|ts| - 1]);
    }
  }

  /** The per-window guarantee of the corrected limiter: a customer calling inside one
      window, starting from `b = CountIn(e, w)` requests already counted for it, has its
      first `max - b` calls admitted and the rest denied, so at most `max - b` admitted,
      and ends with its counter stamped with the window at `min(b + calls, max)`. */
  lemma OneWindowOutcomes(cfg: Config, e: Option<WindowCounter>, w: int, ts: seq<int>)
    requires cfg.windowSize > 0 && cfg.maxAllowedRequests >= 1
    requires Settled(cfg, e, w) && InWindow(cfg, w, ts)
    ensures var (e', outs) := RunKey(IntendedDecider(cfg), e, ts);
      var b := CountIn(e, w);
      && outs == seq(|ts|, i => b + i < cfg.maxAllowedRequests)
      && Admits(outs) <= cfg.maxAllowedRequests - b
      && (ts != [] ==> e' == Some(WindowCounter(JavaInt.Min(b + |ts|, cfg.maxAllowedRequests), w)))
  {
    WindowTraceHolds(cfg, e, w, ts);
    RunKeyBackIsRunKey(IntendedDecider(cfg), e, ts);
  }

  /** A new customer's burst at one timestamp: the first `max` calls are admitted and the
      rest denied. */
  lemma FreshBurst(cfg: Config, t: int, n: nat)
    requires cfg.windowSize > 0 && cfg.maxAllowedRequests >= 1
    ensures RunKey(IntendedDecider(cfg), None, seq(n, _ => t)).1 == seq(n, i => i < cfg.maxAllowedRequests)
  {
    OneWindowOutcomes(cfg, None, WindowOf(cfg.windowSize, t), seq(n, _ => t));
    assert seq(n, i => 0 + i < cfg.maxAllowedRequests) == seq(n, i => i < cfg.maxAllowedRequests);
  }

  /** Every call of `calls` falls in the window that starts at `w`. */
  predicate CallsInWindow(cfg: Config, w: int, calls: seq<Call>)
    requires cfg.windowSize > 0
  {
    forall i :: 0 <= i < |calls| ==> WindowOf(cfg.windowSize, calls[i].time) == w
  }

  lemma {:induction false} TimesInWindow(cfg: Config, w: int, calls: seq<Call>, k: int)
    requires cfg.windowSize > 0 && CallsInWindow(cfg, w, calls)
    ensures InWindow(cfg, w, TimesFor(calls, k))
    decreases |calls|
  {
    if calls != [] {
      var rest := TimesFor(calls[1..], k);
      assert CallsInWindow(cfg, w, calls[1..]) by {
        forall i | 0 <= i < |calls[1..]|
          ensures WindowOf(cfg.windowSize, calls[1..][i].time) == w
        {
          assert calls[1..][i] == calls[i + 1];
        }
      }
      TimesInWindow(cfg, w, calls[1..], k);
      if calls[0].key == k {
        var ts := TimesFor(calls, k);
        assert ts == [calls[0].time] + rest;
        forall i | 0 <= i < |ts|
          ensures WindowOf(cfg.windowSize, ts[i]) == w
        {
          if i > 0 {
            assert ts[i] == rest[i - 1];
          }
        }
      }
    }
  }

  /** The per-window bound of the limiter as written, on calls that never go back in time:
      inside one window each customer is admitted at most `max - b` times, `b` the
      requests already counted for it in that window. */
  lemma AtMostMaxPerWindow(cfg: Config, lim: Limiter, calls: seq<Call>, k: int, w: int)
    requires cfg.windowSize > 0 && cfg.maxAllowedRequests >= 1
    requires Aligned(cfg.windowSize, lim.currentWindowStart) && Ordered(lim.currentWindowStart, calls)
    requires Settled(cfg, Lookup(lim.counters, k), w) && CallsInWindow(cfg, w, calls)
    ensures Admits(OutcomesFor(calls, Run(Stepper(cfg), lim, calls).1, k))
         <= cfg.maxAllowedRequests - CountIn(Lookup(lim.counters, k), w)
  {
    AgreesWhenOrdered(cfg, lim, calls);
    KeysIndependent(IntendedDecider(cfg), lim.counters, calls, k);
    TimesInWindow(cfg, w, calls, k);
    OneWindowOutcomes(cfg, Lookup(lim.counters, k), w, TimesFor(calls, k));
  }

  /** Two customers in lockstep at non-decreasing timestamps, none before `lo`, call in
      order. */
  lemma {:induction false} OrderedLockstep(a: int, b: int, lo: int, ts: seq<int>)
    requires NonDecreasing(ts) && (ts != [] ==> lo <= ts[0])
    ensures Ordered(lo, Lockstep(a, b, ts))
    decreases |ts|
  {
    if ts != [] {
      var rest := Lockstep(a, b, ts[1..]);
      var calls := Lockstep(a, b, ts);
      assert calls[0] == Call(a, ts[0]) && calls[1..] == [Call(b, ts[0])] + rest;
      assert calls[1..][0] == Call(b, ts[0]) && calls[1..][1..] == rest;
      assert ts[1..] != [] ==> ts[0] <= ts[1..][0];
      OrderedLockstep(a, b, ts[0], ts[1..]);
    }
  }

  /** One customer alone at non-decreasing timestamps, none before `lo`, calls in order. */
  lemma {:induction false} OrderedSolo(k: int, lo: int, ts: seq<int>)
    requires NonDecreasing(ts) && (ts != [] ==> lo <= ts[0])
    ensures Ordered(lo, Solo(k, ts))
    decreases |ts|
  {
    if ts != [] {
      var calls := Solo(k, ts);
      assert calls[0] == Call(k, ts[0]) && calls[1..] == Solo(k, ts[1..]);
      assert ts[1..] != [] ==> ts[0] <= ts[1..][0];
      OrderedSolo(k, ts[0], ts[1..]);
    }
  }

  /** Timestamps between an aligned `w` and `w + windowSize` all fall in `w`'s window. */
  lemma WithinWindow(cfg: Config, w: int, ts: seq<int>)
    requires cfg.windowSize > 0 && Aligned(cfg.windowSize, w)
    requires forall i :: 0 <= i < |ts| ==> w <= ts[i] < w + cfg.windowSize
    ensures InWindow(cfg, w, ts)
  {
    forall i | 0 <= i < |ts|
      ensures WindowOf(cfg.windowSize, ts[i]) == w
    {
      WindowOfUnique(cfg.windowSize, w, ts[i]);
    }
  }

  /** One customer's trace of the interleaved test: five calls admitted in the window
      starting at 10, the sixth denied, and the call at 20 admitted in a new window. */
  lemma InterleavedCustomerTrace(cfg: Config)
    requires cfg == Config(5, 10)
    ensures RunKey(IntendedDecider(cfg), None, [11, 12, 13, 14, 18, 19, 20]).1
         == [true, true, true, true, true, false, true]
  {
    var d := IntendedDecider(cfg);
    var first := [11, 12, 13, 14, 18, 19];
    WithinWindow(cfg, 10, first);
    OneWindowOutcomes(cfg, None, 10, first);
    var full := Some(WindowCounter(5, 10));
    RunKeyAppend(d, None, first, [20]);
    RunKeyCons(d, full, 20, []);
    assert RunKey(d, Some(WindowCounter(1, 20)), []) == (Some(WindowCounter(1, 20)), []);
    InterleavedLiterals();
  }

  lemma InterleavedLiterals()
    ensures [11, 12, 13, 14, 18, 19] + [20] == [11, 12, 13, 14, 18, 19, 20]
    ensures seq(6, i => 0 + i < 5) + ([true] + []) == [true, true, true, true, true, false, true]
  {
  }

  /** The interleaved test: two customers calling in lockstep at 11, 12, 13, 14, 18, 19, 20
      on a fresh limiter each see that trace's outcomes, the limiter as written included. */
  lemma InterleavedCustomers(cfg: Config, lim0: Limiter)
    requires cfg == Config(5, 10) && lim0 == Init()
    ensures var calls := Lockstep(100, 200, [11, 12, 13, 14, 18, 19, 20]);
      Run(Stepper(cfg), lim0, calls).1 == Twice([true, true, true, true, true, false, true])
  {
    var ts := [11, 12, 13, 14, 18, 19, 20];
    OrderedLockstep(100, 200, 0, ts);
    AgreesWhenOrdered(cfg, lim0, Lockstep(100, 200, ts));
    LockstepRun(IntendedDecider(cfg), lim0.counters, 100, 200, ts);
    InterleavedCustomerTrace(cfg);
  }

  /** The separate test: after one call of customer 100 at 12, customer 200 calling six
      times at 12 is admitted five times and then denied, the limiter as written
      included. */
  lemma SeparateCustomers(cfg: Config, lim0: Limiter)
    requires cfg == Config(5, 10) && lim0 == Init()
    ensures var calls := [Call(100, 12)] + Solo(200, seq(6, _ => 12));
      Run(Stepper(cfg), lim0, calls).1 == [true, true, true, true, true, true, false]
  {
    var ts := seq(6, _ => 12);
    var calls := [Call(100, 12)] + Solo(200, ts);
    OrderedSolo(200, 12, ts);
    assert calls[0] == Call(100, 12) && calls[1..] == Solo(200, ts);
    AgreesWhenOrdered(cfg, lim0, calls);
    SeparateIntended(cfg, lim0.counters);
  }

  /** The separate test on the corrected limiter. */
  lemma SeparateIntended(cfg: Config, m0: map<int, WindowCounter>)
    requires cfg == Config(5, 10) && m0 == map[]
    ensures Run(Lifted(IntendedDecider(cfg)), m0, [Call(100, 12)] + Solo(200, seq(6, _ => 12))).1
         == [true, true, true, true, true, true, false]
  {
    var d := IntendedDecider(cfg);
    var ts := seq(6, _ => 12);
    var m1 := map[100 := WindowCounter(1, 10)];
    WindowOfUnique(cfg.windowSize, 10, 12);
    assert Lifted(d)(m0, Call(100, 12)) == (m1, true);
    RunCons(Lifted(d), m0, Call(100, 12), Solo(200, ts));
    assert Lookup(m1, 200) == None;
    SoloRun(d, m1, 200, ts);
    FreshBurst(cfg, 12, 6);
    FiveThenDeny();
  }

  /** The limiter as written lets one customer's call change another's outcome: with one
      request per window of 10, a call of customer 1 at 100 moves the shared start to 100,
      customer 2's call at 5 then moves it back only to 10, so customer 2's counter is
      stamped 10 and its call at 15 is denied; on its own the same customer is admitted
      at 15, a new window. */
  lemma SharedStartCouplesCustomers(lim0: Limiter)
    requires lim0 == Init()
    ensures Run(Stepper(Config(1, 10)), lim0, [Call(1, 100), Call(2, 5), Call(2, 15)]).1 == [true, true, false]
    ensures Run(Stepper(Config(1, 10)), lim0, [Call(2, 5), Call(2, 15)]).1 == [true, true]
  {
    var cfg := Config(1, 10);
    var st := Stepper(cfg);
    var a1 := Limiter(100, map[1 := WindowCounter(1, 100)]);
    var a2 := Limiter(10, map[1 := WindowCounter(1, 100), 2 := WindowCounter(1, 10)]);
    var b1 := Limiter(0, map[2 := WindowCounter(1, 0)]);
    var b2 := Limiter(10, map[2 := WindowCounter(1, 10)]);
    CouplingStep1();
    CouplingStep2();
    CouplingStep3();
    CouplingStep4();
    CouplingStep5();
    RunThree(st, lim0, Call(1, 100), Call(2, 5), Call(2, 15), a1, a2, a2, true, true, false);
    RunTwo(st, lim0, Call(2, 5), Call(2, 15), b1, b2, true, true);
  }

  /** The single calls of the coupling example. */
  lemma CouplingStep1()
    ensures Stepper(Config(1, 10))(Init(), Call(1, 100)) == (Limiter(100, map[1 := WindowCounter(1, 100)]), true)
  {
    AdvanceFromAligned(Config(1, 10), 0, 100);
  }

  lemma CouplingStep2()
    ensures Stepper(Config(1, 10))(Limiter(100, map[1 := WindowCounter(1, 100)]), Call(2, 5))
         == (Limiter(10, map[1 := WindowCounter(1, 100), 2 := WindowCounter(1, 10)]), true)
  {
    BackwardAdvance();
  }

  lemma CouplingStep3()
    ensures var a2 := Limiter(10, map[1 := WindowCounter(1, 100), 2 := WindowCounter(1, 10)]);
      Stepper(Config(1, 10))(a2, Call(2, 15)) == (a2, false)
  {
    AdvanceFromAligned(Config(1, 10), 10, 15);
  }

  lemma CouplingStep4()
    ensures Stepper(Config(1, 10))(Init(), Call(2, 5)) == (Limiter(0, map[2 := WindowCounter(1, 0)]), true)
  {
    AdvanceFromAligned(Config(1, 10), 0, 5);
  }

  lemma CouplingStep5()
    ensures Stepper(Config(1, 10))(Limiter(0, map[2 := WindowCounter(1, 0)]), Call(2, 15))
         == (Limiter(10, map[2 := WindowCounter(1, 10)]), true)
  {
    AdvanceFromAligned(Config(1, 10), 0, 15);
    assert map[2 := WindowCounter(1, 0)][2 := WindowCounter(1, 10)] == map[2 := WindowCounter(1, 10)];
  }

  /** The truncated quotient of the step back from 100 to 5 is -9 windows, not -10. */
  lemma BackwardAdvance()
    ensures AdvanceWindow(Config(1, 10), 100, 5) == 10
  {
  }
}

=== FILE: fixed_window_token_bucket.dfy ===
/** Fixed window token bucket limiter: every customer holds a map from window start to the
    tokens left in that window, a missing window meaning a full `maxTokens`. The window
    start is one field shared by the whole limiter; it only moves forward, to the start of
    the caller's window, once a call comes a whole window after it. */
module FixedWindowTokenBucket {
  import opened KeyedStore
  import JavaInt
  import opened Windows

  datatype Config = Config(windowSize: int, maxTokens: int)

  /** window start -> tokens left in that window */
  type Tokens = map<int, int>

  /** The limiter-wide window start and the customer id -> tokens map. */
  datatype Limiter = Limiter(windowStart: int, remaining: map<int, Tokens>)

  /** A fresh limiter: window start 0, no customers. */
  function Init(): Limiter
  {
    Limiter(0, map[])
  }

  /** `FixedWindowTokenBucketRateLimiter.java` lines 27-28: a call a whole window or more
      after the current start moves the start to the beginning of the call's window,
      `(timestamp / windowSize) * windowSize`; any other call leaves it where it is. */
  function NextWindowStart(cfg: Config, start: int, t: int): (r: int)
    requires cfg.windowSize > 0
    ensures t < start + cfg.windowSize ==> r == start
    ensures t >= start + cfg.windowSize && t >= 0 ==> Aligned(cfg.windowSize, r) && r <= t < r + cfg.windowSize
  {
    if t >= start + cfg.windowSize then
      var q := JavaInt.Div(t, cfg.windowSize);
      JavaInt.MulIsProduct(q, cfg.windowSize);
      JavaInt.ModAddMultiple(0, q, cfg.windowSize);
      JavaInt.Mul(q, cfg.windowSize)
    else
      start
  }

  /** The customer's tokens map, empty for a customer never stored. */
  function TokensOf(lim: Limiter, k: int): Tokens
  {
    if k in lim.remaining then lim.remaining[k] else map[]
  }

  /** The tokens a customer's map leaves in window `w`: the stored count, or a full bucket
      (the code's `getOrDefault(windowStart, maxTokens)`). */
  function Left(cfg: Config, tokens: Tokens, w: int): int
  {
    if w in tokens then tokens[w] else cfg.maxTokens
  }

  /** The tokens customer `k` has left in window `w`. */
  function Remaining(cfg: Config, lim: Limiter, k: int, w: int): int
  {
    Left(cfg, TokensOf(lim, k), w)
  }

  /** `FixedWindowTokenBucketRateLimiter.java` lines 53-56: drop the entries of windows
      that started before `start`. */
  function Cleanup(tokens: Tokens, start: int): (r: Tokens)
    ensures forall w :: w in r <==> w in tokens && w >= start
    ensures forall w :: w in r ==> r[w] == tokens[w]
  {
    map w | w in tokens && w >= start :: tokens[w]
  }

  /** One customer's map at window `w`: read the tokens left in `w`, drop the expired
      windows, then spend one token of `w` when there is one. Only `w` and later windows
      remain, and every window after `w` keeps its count. */
  function Spend(cfg: Config, tokens: Tokens, w: int): (r: (Tokens, bool))
    ensures r.1 <==> Left(cfg, tokens, w) > 0
    ensures Left(cfg, r.0, w) == Left(cfg, tokens, w) - (if r.1 then 1 else 0)
    ensures forall v :: v in r.0 <==> (v in tokens && v >= w) || (r.1 && v == w)
    ensures forall v :: v > w ==> Left(cfg, r.0, v) == Left(cfg, tokens, v)
  {
    var left := Left(cfg, tokens, w);
    var cleaned := Cleanup(tokens, w);
    if left > 0 then (cleaned[w := left - 1], true) else (cleaned, false)
  }

  /** `shouldAllowRequest(customerId, timestamp)`: move the window start, then spend from
      the caller's map at the new start. The cleaned map is the stored one when the customer
      exists, so a denied call still stores it; a denied new customer stays unstored. */
  function Step(cfg: Config, lim: Limiter, k: int, t: int): (r: (Limiter, bool))
    requires cfg.windowSize > 0
    ensures r.0.windowStart == NextWindowStart(cfg, lim.windowStart, t)
    ensures r.1 <==> Remaining(cfg, lim, k, r.0.windowStart) > 0
    ensures forall j :: j != k ==> Lookup(r.0.remaining, j) == Lookup(lim.remaining, j)
  {
    var start := NextWindowStart(cfg, lim.windowStart, t);
    var (tokens, ok) := Spend(cfg, TokensOf(lim, k), start);
    (Limiter(start, if ok || k in lim.remaining then lim.remaining[k := tokens] else lim.remaining), ok)
  }

  function Stepper(cfg: Config): (Limiter, Call) -> (Limiter, bool)
    requires cfg.windowSize > 0
  {
    (lim: Limiter, c: Call) => Step(cfg, lim, c.key, c.time)
  }

  /** An admitted call spends exactly one token of the current window; a denied one spends
      nothing. Every later window keeps its count, for the caller and everyone else. */
  lemma SpendsOneToken(cfg: Config, lim: Limiter, k: int, t: int)
    requires cfg.windowSize > 0
    ensures var (lim', ok) := Step(cfg, lim, k, t);
      var start := lim'.windowStart;
      && Remaining(cfg, lim', k, start) == Remaining(cfg, lim, k, start) - (if ok then 1 else 0)
      && (forall w :: w > start ==> Remaining(cfg, lim', k, w) == Remaining(cfg, lim, k, w))
      && (forall j, w :: j != k ==> Remaining(cfg, lim', j, w) == Remaining(cfg, lim, j, w))
  {
    var (lim', ok) := Step(cfg, lim, k, t);
    forall j, w | j != k
      ensures Remaining(cfg, lim', j, w) == Remaining(cfg, lim, j, w)
    {
      assert Lookup(lim'.remaining, j) == Lookup(lim.remaining, j);
    }
  }

  /** A denied call changes no token count that can still be read: only the caller's
      windows before the current start are dropped. */
  lemma DenyKeepsCounts(cfg: Config, lim: Limiter, k: int, t: int)
    requires cfg.windowSize > 0
    ensures var (lim', ok) := Step(cfg, lim, k, t);
      !ok ==>
        && (forall w :: w >= lim'.windowStart ==> Remaining(cfg, lim', k, w) == Remaining(cfg, lim, k, w))
        && (forall w :: w in TokensOf(lim', k) <==> w in TokensOf(lim, k) && w >= lim'.windowStart)
  {
  }

  /** After any call the caller's stored map has no window that started before the
      current start. */
  lemma CallerHasNoExpiredWindow(cfg: Config, lim: Limiter, k: int, t: int)
    requires cfg.windowSize > 0
    ensures var (lim', _) := Step(cfg, lim, k, t);
      forall w :: w in TokensOf(lim', k) ==> w >= lim'.windowStart
  {
  }

  /** The invariant of every reachable limiter: the window start is a non-negative multiple
      of the window size, no stored window started after it, and every stored count is
      between zero and `maxTokens`. */
  predicate Inv(cfg: Config, lim: Limiter)
    requires cfg.windowSize > 0
  {
    && lim.windowStart >= 0 && Aligned(cfg.windowSize, lim.windowStart)
    && forall k, w :: k in lim.remaining && w in lim.remaining[k] ==>
         w <= lim.windowStart && 0 <= lim.remaining[k][w] <= cfg.maxTokens
  }

  lemma InitInv(cfg: Config)
    requires cfg.windowSize > 0
    ensures Inv(cfg, Init())
  {
  }

  /** Every call keeps the invariant, and the window start never moves back. */
  lemma StepKeepsInv(cfg: Config, lim: Limiter, k: int, t: int)
    requires cfg.windowSize > 0 && Inv(cfg, lim)
    ensures var lim' := Step(cfg, lim, k, t).0;
      Inv(cfg, lim') && lim.windowStart <= lim'.windowStart
  {
    var (lim', ok) := Step(cfg, lim, k, t);
    if t >= lim.windowStart + cfg.windowSize {
      assert lim.windowStart <= lim'.windowStart;
    }
  }

  /** With the invariant, the caller's stored map after a call holds at most the entry of
      the current window: older windows are cleaned up and none is newer. */
  lemma CallerKeepsOneWindow(cfg: Config, lim: Limiter, k: int, t: int)
    requires cfg.windowSize > 0 && Inv(cfg, lim)
    ensures var (lim', _) := Step(cfg, lim, k, t);
      forall w :: w in TokensOf(lim', k) ==> w == lim'.windowStart
  {
    StepKeepsInv(cfg, lim, k, t);
  }

  /** Replaying any calls keeps the invariant, and the window start never moves back. */
  lemma {:induction false} RunKeepsInv(cfg: Config, lim: Limiter, calls: seq<Call>)
    requires cfg.windowSize > 0 && Inv(cfg, lim)
    ensures var lim' := Run(Stepper(cfg), lim, calls).0;
      Inv(cfg, lim') && lim.windowStart <= lim'.windowStart
    decreases |calls|
  {
    if calls != [] {
      StepKeepsInv(cfg, lim, calls[0].key, calls[0].time);
      RunKeepsInv(cfg, Step(cfg, lim, calls[0].key, calls[0].time).0, calls[1..]);
    }
  }

  /** Every call comes before the end of the window that starts at `w`. */
  predicate BeforeWindowEnd(cfg: Config, w: int, calls: seq<Call>)
    requires cfg.windowSize > 0
  {
    forall i :: 0 <= i < |calls| ==> calls[i].time < w + cfg.windowSize
  }

  /** The per-window quota: while no call reaches the end of the current window, each
      customer with `r` tokens left in it has its first `r` calls admitted and the rest
      denied, however the customers' calls interleave. */
  lemma {:induction false} WindowQuota(cfg: Config, lim: Limiter, calls: seq<Call>, k: int)
    requires cfg.windowSize > 0 && BeforeWindowEnd(cfg, lim.windowStart, calls)
    ensures var outs := Run(Stepper(cfg), lim, calls).1;
      OutcomesFor(calls, outs, k)
        == seq(|TimesFor(calls, k)|, i => i < Remaining(cfg, lim, k, lim.windowStart))
    decreases |calls|
  {
    if calls != [] {
      var c, rest := calls[0], calls[1..];
      var w := lim.windowStart;
      var r := Remaining(cfg, lim, k, w);
      var (lim1, ok) := Step(cfg, lim, c.key, c.time);
      SpendsOneToken(cfg, lim, c.key, c.time);
      assert lim1.windowStart == w;
      assert BeforeWindowEnd(cfg, w, rest) by {
        forall i | 0 <= i < |rest|
          ensures rest[i].time < w + cfg.windowSize
        {
          assert rest[i] == calls[i + 1];
        }
      }
      WindowQuota(cfg, lim1, rest, k);
      var outs := Run(Stepper(cfg), lim, calls).1;
      var outs1 := Run(Stepper(cfg), lim1, rest).1;
      assert Stepper(cfg)(lim, c) == (lim1, ok);
      assert outs == [ok] + outs1;
      assert outs[1..] == outs1;
      var n1 := |TimesFor(rest, k)|;
      if c.key == k {
        var r1 := Remaining(cfg, lim1, k, w);
        assert TimesFor(calls, k) == [c.time] + TimesFor(rest, k);
        assert OutcomesFor(calls, outs, k) == [ok] + seq(n1, i => i < r1);
        FirstOutcomesCons(n1, r, ok);
      } else {
        assert TimesFor(calls, k) == TimesFor(rest, k);
      }
    }
  }

  /** From a reachable limiter, no customer is admitted more than `maxTokens` times before
      the current window ends. */
  lemma AtMostMaxTokensPerWindow(cfg: Config, lim: Limiter, calls: seq<Call>, k: int)
    requires cfg.windowSize > 0 && cfg.maxTokens >= 0
    requires Inv(cfg, lim) && BeforeWindowEnd(cfg, lim.windowStart, calls)
    ensures Admits(OutcomesFor(calls, Run(Stepper(cfg), lim, calls).1, k)) <= cfg.maxTokens
  {
    WindowQuota(cfg, lim, calls, k);
    var r := Remaining(cfg, lim, k, lim.windowStart);
    AdmitsFirst(|TimesFor(calls, k)|, r);
  }

  /** The limiter as written lets one customer's call give another a second quota inside
      one window: with one token per window of 10, customer 2 is admitted at 5; customer 1
      at 25 moves the shared start to 20; customer 2 at 8, still in window [0, 10), reads
      the untouched window 20 and is admitted again. On its own, customer 2 is denied at 8. */
  lemma SharedStartOverAdmits(lim0: Limiter)
    requires lim0 == Init()
    ensures Run(Stepper(Config(10, 1)), lim0, [Call(2, 5), Call(1, 25), Call(2, 8)]).1 == [true, true, true]
    ensures Run(Stepper(Config(10, 1)), lim0, [Call(2, 5), Call(2, 8)]).1 == [true, false]
  {
  }

  /** The stored map of an entry, empty for a customer never stored. */
  function Stored(e: Option<Tokens>): Tokens
  {
    if e.Some? then e.value else map[]
  }

  /** The window alignment the limiter evidently intends: each call spends from the window
      holding its own timestamp, so the limiter is a plain per-customer decision. A denied
      new customer is stored with an empty map, which reads as no entry at all. */
  function DecideIntended(cfg: Config, e: Option<Tokens>, t: int): (Tokens, bool)
    requires cfg.windowSize > 0
  {
    Spend(cfg, Stored(e), WindowOf(cfg.windowSize, t))
  }

  function IntendedDecider(cfg: Config): (Option<Tokens>, int) -> (Tokens, bool)
    requires cfg.windowSize > 0
  {
    (e: Option<Tokens>, t: int) => DecideIntended(cfg, e, t)
  }

  /** The corrected limiter's customers do not influence each other: the outcomes of a
      customer's calls and the map it ends with are those of its own calls replayed alone. */
  lemma IntendedCustomersIndependent(cfg: Config, m: map<int, Tokens>, calls: seq<Call>, k: int)
    requires cfg.windowSize > 0
    ensures OutcomesFor(calls, Run(Lifted(IntendedDecider(cfg)), m, calls).1, k)
         == RunKey(IntendedDecider(cfg), Lookup(m, k), TimesFor(calls, k)).1
    ensures Lookup(Run(Lifted(IntendedDecider(cfg)), m, calls).0, k)
         == RunKey(IntendedDecider(cfg), Lookup(m, k), TimesFor(calls, k)).0
  {
    KeysIndependent(IntendedDecider(cfg), m, calls, k);
  }

  /** The per-window quota of the corrected limiter: a customer whose calls all fall in
      window `w`, with `r` tokens left in it, has its first `r` calls admitted and the rest
      denied. */
  lemma {:induction false} IntendedWindowQuota(cfg: Config, e: Option<Tokens>, w: int, ts: seq<int>)
    requires cfg.windowSize > 0
    requires forall i :: 0 <= i < |ts| ==> WindowOf(cfg.windowSize, ts[i]) == w
    ensures RunKey(IntendedDecider(cfg), e, ts).1 == seq(|ts|, i => i < Left(cfg, Stored(e), w))
    decreases |ts|
  {
    if ts != [] {
      var r := Left(cfg, Stored(e), w);
      var (v, ok) := DecideIntended(cfg, e, ts[0]);
      assert WindowOf(cfg.windowSize, ts[0]) == w;
      assert Left(cfg, v, w) == (if ok then r - 1 else r);
      IntendedWindowQuota(cfg, Some(v), w, ts[1..]);
      assert IntendedDecider(cfg)(e, ts[0]) == (v, ok);
      assert RunKey(IntendedDecider(cfg), e, ts).1 == [ok] + RunKey(IntendedDecider(cfg), Some(v), ts[1..]).1;
      FirstOutcomesCons(|ts| - 1, r, ok);
    }
  }

  /** Every stored count of the corrected limiter is between zero and `maxTokens`. */
  predicate IntendedInv(cfg: Config, m: map<int, Tokens>)
  {
    forall k, w :: k in m && w in m[k] ==> 0 <= m[k][w] <= cfg.maxTokens
  }

  /** The fresh map satisfies the invariant, and every corrected call keeps it. */
  lemma IntendedKeepsInv(cfg: Config, m: map<int, Tokens>, k: int, t: int)
    requires cfg.windowSize > 0
    ensures IntendedInv(cfg, map[])
    ensures IntendedInv(cfg, m) ==> IntendedInv(cfg, Apply(IntendedDecider(cfg), m, k, t).0)
  {
  }

  /** The corrected limiter keeps the quota of every customer's own window: in any
      interleaving, a customer whose calls all fall in one window is admitted at most
      `maxTokens` times, whatever other customers do. */
  lemma IntendedAtMostMaxTokensPerWindow(cfg: Config, m: map<int, Tokens>, calls: seq<Call>, k: int, w: int)
    requires cfg.windowSize > 0 && cfg.maxTokens >= 0 && IntendedInv(cfg, m)
    requires forall i :: 0 <= i < |calls| && calls[i].key == k ==> WindowOf(cfg.windowSize, calls[i].time) == w
    ensures Admits(OutcomesFor(calls, Run(Lifted(IntendedDecider(cfg)), m, calls).1, k)) <= cfg.maxTokens
  {
    var ts := TimesFor(calls, k);
    TimesForAll(calls, k, t => WindowOf(cfg.windowSize, t) == w);
    KeysIndependent(IntendedDecider(cfg), m, calls, k);
    IntendedWindowQuota(cfg, Lookup(m, k), w, ts);
    var r := Left(cfg, Stored(Lookup(m, k)), w);
    assert r <= cfg.maxTokens;
    AdmitsFirst(|ts|, r);
  }
}

=== FILE: java_int.dfy ===
/** Java `int` arithmetic that differs from Dafny's: `/` truncates toward zero, while
    Dafny's `/` is Euclidean; `*` of two run-time values is spelled out as `Mul`; and
    `Math.min` and `Math.max` are `Min` and `Max`. Overflow is not modelled. */
module JavaInt {

  /** Quotient and remainder facts for Dafny's division by a positive divisor. */
  lemma Euclid(a: int, b: int)
    requires b > 0
    ensures a == (a / b) * b + a % b && 0 <= a % b < b
    ensures a >= 0 ==> a / b >= 0
  {
  }

  /** Multiplying both sides of `x <= y` by a positive factor. */
  lemma MulLe(x: int, y: int, b: int)
    requires x <= y && b > 0
    ensures x * b <= y * b
  {
  }

  /** Quotient and remainder are the only ones with `n == m * b + r` and `0 <= r < b`. */
  lemma DivModUnique(n: int, b: int, m: int, r: int)
    requires b > 0 && n == m * b + r && 0 <= r < b
    ensures n / b == m && n % b == r
  {
    var q := n / b;
    Euclid(n, b);
    if q > m {
      MulLe(m + 1, q, b);
    } else if q < m {
      MulLe(q + 1, m, b);
    }
  }

  /** Adding whole multiples of `b` does not change the remainder. */
  lemma ModAddMultiple(a: int, q: int, b: int)
    requires b > 0
    ensures (a + q * b) % b == a % b
  {
    Euclid(a, b);
    assert a + q * b == (a / b + q) * b + a % b;
    DivModUnique(a + q * b, b, a / b + q, a % b);
  }

  /** Java's `Math.min`. */
  function Min(a: int, b: int): (m: int)
    ensures m <= a && m <= b && (m == a || m == b)
  {
    if a <= b then a else b
  }

  /** Java's `Math.max`. */
  function Max(a: int, b: int): (m: int)
    ensures m >= a && m >= b && (m == a || m == b)
  {
    if a >= b then a else b
  }

  /** Java's `a / b` for a positive divisor: the quotient rounded toward zero. */
  function Div(a: int, b: int): (q: int)
    requires b > 0
    ensures a >= 0 ==> q >= 0 && 0 <= a - q * b < b
    ensures a < 0 ==> q <= 0 && -b < a - q * b <= 0
  {
    if a >= 0 then
      Euclid(a, b);
      a / b
    else
      Euclid(-a, b);
      -((-a) / b)
  }

  /** A dividend strictly between `-b` and `b` has quotient zero. */
  lemma DivSmall(a: int, b: int)
    requires b > 0 && -b < a < b
    ensures Div(a, b) == 0
  {
    var q := Div(a, b);
    if q >= 1 {
      MulLe(1, q, b);
    } else if q <= -1 {
      MulLe(q, -1, b);
    }
  }

  /** Truncating the rational `a / b` and comparing it with a positive integer bound is
      the same as comparing `a` with `bound * b` exactly. */
  lemma DivLessIff(a: int, b: int, bound: int)
    requires b > 0 && bound >= 1
    ensures Div(a, b) < bound <==> a < bound * b
  {
    var q := Div(a, b);
    MulLe(1, bound, b);
    if a >= 0 {
      if q < bound {
        MulLe(q + 1, bound, b);
      } else {
        MulLe(bound, q, b);
      }
    }
  }

  /** Java's `a * b` on two run-time values, as repeated addition over `a`: unfolding it
      adds or subtracts `b` and never introduces a product of two unknowns. */
  function Mul(a: int, b: int): int
    decreases if a < 0 then -a else a
  {
    if a == 0 then 0 else if a > 0 then Mul(a - 1, b) + b else Mul(a + 1, b) - b
  }

  lemma {:induction false} MulIsProduct(a: int, b: int)
    ensures Mul(a, b) == a * b
    decreases if a < 0 then -a else a
  {
    if a > 0 {
      MulIsProduct(a - 1, b);
      assert (a - 1) * b + b == a * b;
    } else if a < 0 {
      MulIsProduct(a + 1, b);
      assert (a + 1) * b - b == a * b;
    }
  }

  /** Products with a common factor add up. */
  lemma MulAddsUp(x: int, y: int, b: int)
    ensures Mul(x, b) + Mul(y, b) == Mul(x + y, b)
  {
    MulIsProduct(x, b);
    MulIsProduct(y, b);
    MulIsProduct(x + y, b);
    assert x * b + y * b == (x + y) * b;
  }

  /** With a non-negative factor, a larger multiplicand gives a larger product. */
  lemma MulGrows(x: int, y: int, b: int)
    requires x <= y && b >= 0
    ensures Mul(x, b) <= Mul(y, b)
  {
    MulIsProduct(x, b);
    MulIsProduct(y, b);
    if b > 0 {
      MulLe(x, y, b);
    }
  }
}

=== FILE: keyed_store.dfy ===
/** The per-key state store shared by every limiter, and the common decision contract
    `shouldAllowRequest(customerId, timestamp) -> bool`, rendered as a pure step that
    returns the next limiter state together with the admit/deny outcome. */
module KeyedStore {

  datatype Option<T> = None | Some(value: T)

  /** One call of the decision contract: the customer id and the logical timestamp. */
  datatype Call = Call(key: int, time: int)

  /** The entry stored for `k`, if any. */
  function Lookup<V>(m: map<int, V>, k: int): Option<V>
  {
    if k in m then Some(m[k]) else None
  }

  /** Runs a per-key decision on the caller's entry and writes the resulting entry back.
      Every other key is left exactly as it was. */
  function Apply<V>(decide: (Option<V>, int) -> (V, bool), m: map<int, V>, k: int, t: int): (r: (map<int, V>, bool))
    ensures k in r.0 && (r.0[k], r.1) == decide(Lookup(m, k), t)
    ensures r.0.Keys == m.Keys + {k}
    ensures forall j :: j != k ==> Lookup(r.0, j) == Lookup(m, j)
  {
    var (v, ok) := decide(Lookup(m, k), t);
    (m[k := v], ok)
  }

  /** The limiter-wide step obtained from a per-key decision. */
  function Lifted<V>(decide: (Option<V>, int) -> (V, bool)): (map<int, V>, Call) -> (map<int, V>, bool)
  {
    (m: map<int, V>, c: Call) => Apply(decide, m, c.key, c.time)
  }

  /** Feeds a sequence of calls through a limiter step, collecting one outcome per call. */
  function Run<S>(step: (S, Call) -> (S, bool), s: S, calls: seq<Call>): (r: (S, seq<bool>))
    ensures |r.1| == |calls|
    decreases |calls|
  {
    if calls == [] then (s, [])
    else
      var (s1, ok) := step(s, calls[0]);
      var (s2, rest) := Run(step, s1, calls[1..]);
      (s2, [ok] + rest)
  }

  /** Feeds a sequence of timestamps for one key through a per-key decision, starting from
      the entry `e`; returns the final entry and one outcome per timestamp. */
  function RunKey<V>(decide: (Option<V>, int) -> (V, bool), e: Option<V>, ts: seq<int>): (r: (Option<V>, seq<bool>))
    ensures |r.1| == |ts|
    ensures ts != [] ==> r.0.Some?
    decreases |ts|
  {
    if ts == [] then (e, [])
    else
      var (v, ok) := decide(e, ts[0]);
      var (e2, rest) := RunKey(decide, Some(v), ts[1..]);
      (e2, [ok] + rest)
  }

  /** The timestamps of the calls made by `k`, in call order. */
  function TimesFor(calls: seq<Call>, k: int): seq<int>
    decreases |calls|
  {
    if calls == [] then []
    else (if calls[0].key == k then [calls[0].time] else []) + TimesFor(calls[1..], k)
  }

  /** The outcomes of the calls made by `k`, in call order. */
  function OutcomesFor(calls: seq<Call>, outs: seq<bool>, k: int): seq<bool>
    requires |outs| == |calls|
    decreases |calls|
  {
    if calls == [] then []
    else (if calls[0].key == k then [outs[0]] else []) + OutcomesFor(calls[1..], outs[1..], k)
  }

  /** A fact every call of `k` satisfies holds of each of `k`'s timestamps. */
  lemma {:induction false} TimesForAll(calls: seq<Call>, k: int, p: int -> bool)
    requires forall i :: 0 <= i < |calls| && calls[i].key == k ==> p(calls[i].time)
    ensures forall i :: 0 <= i < |TimesFor(calls, k)| ==> p(TimesFor(calls, k)[i])
    decreases |calls|
  {
    if calls != [] {
      var rest := calls[1..];
      assert forall i :: 0 <= i < |rest| && rest[i].key == k ==> p(rest[i].time) by {
        forall i | 0 <= i < |rest| && rest[i].key == k
          ensures p(rest[i].time)
        {
          assert rest[i] == calls[i + 1];
        }
      }
      TimesForAll(rest, k, p);
    }
  }

  /** Cross-key independence: in any interleaving of calls, the outcomes a customer sees
      and the entry it ends with are those of replaying that customer's calls alone. */
  lemma {:induction false} KeysIndependent<V>(decide: (Option<V>, int) -> (V, bool), m: map<int, V>, calls: seq<Call>, k: int)
    ensures OutcomesFor(calls, Run(Lifted(decide), m, calls).1, k) == RunKey(decide, Lookup(m, k), TimesFor(calls, k)).1
    ensures Lookup(Run(Lifted(decide), m, calls).0, k) == RunKey(decide, Lookup(m, k), TimesFor(calls, k)).0
    decreases |calls|
  {
    if calls != [] {
      var c := calls[0];
      var (m1, ok) := Apply(decide, m, c.key, c.time);
      assert Lifted(decide)(m, c) == (m1, ok);
      KeysIndependent(decide, m1, calls[1..], k);
      var outs := Run(Lifted(decide), m, calls).1;
      assert outs == [ok] + Run(Lifted(decide), m1, calls[1..]).1;
      assert outs[1..] == Run(Lifted(decide), m1, calls[1..]).1;
      if c.key == k {
        assert TimesFor(calls, k) == [c.time] + TimesFor(calls[1..], k);
        assert ([c.time] + TimesFor(calls[1..], k))[1..] == TimesFor(calls[1..], k);
      } else {
        assert TimesFor(calls, k) == TimesFor(calls[1..], k);
      }
    }
  }

  /** Number of `true` outcomes. */
  function Admits(outs: seq<bool>): (n: nat)
    ensures n <= |outs|
    decreases |outs|
  {
    if outs == [] then 0 else Admits(outs[..|outs| - 1]) + (if outs[|outs| - 1] then 1 else 0)
  }

  /** Outcomes that admit the first `r` calls and deny the rest admit `min(n, r)` calls,
      none when `r` is not positive. */
  lemma {:induction false} AdmitsFirst(n: nat, r: int)
    ensures Admits(seq(n, i => i < r)) == (if r <= 0 then 0 else if n <= r then n else r)
  {
    if n > 0 {
      assert seq(n, i => i < r)[..n - 1] == seq(n - 1, i => i < r);
      AdmitsFirst(n - 1, r);
    }
  }

  /** Admitting the first `r` of `n + 1` calls is deciding the first one by `0 < r` and
      then admitting the first `r - 1` (or, when it was denied, `r`) of the rest. */
  lemma FirstOutcomesCons(n: nat, r: int, ok: bool)
    requires ok <==> 0 < r
    ensures [ok] + seq(n, i => i < (if ok then r - 1 else r)) == seq(n + 1, i => i < r)
  {
  }

  /** The timestamps whose call was admitted, in call order. */
  function AdmittedTimes(ts: seq<int>, outs: seq<bool>): (r: seq<int>)
    requires |outs| == |ts|
    ensures |r| == Admits(outs)
    decreases |ts|
  {
    if ts == [] then []
    else
      AdmittedTimes(ts[..|ts| - 1], outs[..|ts| - 1]) + (if outs[|ts| - 1] then [ts[|ts| - 1]] else [])
  }

  /** One more call extends the admitted timestamps exactly when it is admitted. */
  lemma AdmittedSnoc(ts: seq<int>, outs: seq<bool>, t: int, ok: bool)
    requires |outs| == |ts|
    ensures AdmittedTimes(ts + [t], outs + [ok]) == AdmittedTimes(ts, outs) + (if ok then [t] else [])
    ensures Admits(outs + [ok]) == Admits(outs) + (if ok then 1 else 0)
  {
    assert (ts + [t])[..|ts|] == ts;
    assert (outs + [ok])[..|outs|] == outs;
  }

  /** A timestamp sequence that never goes back in time. */
  predicate NonDecreasing(ts: seq<int>)
  {
    forall i, j :: 0 <= i <= j < |ts| ==> ts[i] <= ts[j]
  }

  /** Each timestamp is at least the one before it, stated step by step from the back. */
  predicate Chained(ts: seq<int>)
    decreases |ts|
  {
    |ts| <= 1 || (ts[|ts| - 2] <= ts[|ts| - 1] && Chained(ts[..|ts| - 1]))
  }

  /** The two ways of saying "never goes back in time" agree. */
  lemma {:induction false} NonDecreasingIsChained(ts: seq<int>)
    ensures NonDecreasing(ts) <==> Chained(ts)
    decreases |ts|
  {
    if |ts| > 1 {
      var pre := ts[..|ts| - 1];
      NonDecreasingIsChained(pre);
      if Chained(ts) {
        forall i, j | 0 <= i <= j < |ts|
          ensures ts[i] <= ts[j]
        {
          if j == |ts| - 1 && i < j {
            assert pre[i] <= pre[|pre| - 1];
          } else if i < j {
            assert pre[i] <= pre[j];
          }
        }
      }
      if NonDecreasing(ts) {
        assert forall i, j :: 0 <= i <= j < |pre| ==> pre[i] == ts[i] && pre[j] == ts[j];
      }
    }
  }

  /** Replaying one more timestamp extends the replay of the prefix by one decision. */
  lemma {:induction false} RunKeySnoc<V>(decide: (Option<V>, int) -> (V, bool), e: Option<V>, ts: seq<int>, t: int)
    ensures RunKey(decide, e, ts + [t])
         == (var (e1, o1) := RunKey(decide, e, ts); var (v, ok) := decide(e1, t); (Some(v), o1 + [ok]))
    decreases |ts|
  {
    if ts != [] {
      var (v0, ok0) := decide(e, ts[0]);
      assert (ts + [t])[0] == ts[0];
      assert (ts + [t])[1..] == ts[1..] + [t];
      RunKeySnoc(decide, Some(v0), ts[1..], t);
      var (e1, o1) := RunKey(decide, Some(v0), ts[1..]);
      var (v, ok) := decide(e1, t);
      assert RunKey(decide, e, ts) == (e1, [ok0] + o1);
      assert [ok0] + (o1 + [ok]) == ([ok0] + o1) + [ok];
    } else {
      assert ts + [t] == [t] && [t][1..] == [];
      var (v, ok) := decide(e, t);
      assert RunKey(decide, Some(v), []) == (Some(v), []);
      assert RunKey(decide, e, [t]) == (Some(v), [ok] + []);
      assert RunKey(decide, e, ts) == (e, []);
      assert [ok] + [] == [] + [ok];
    }
  }

  /** The same replay, unfolded from the latest timestamp: the prefix is replayed first and
      the last timestamp is decided on its final entry. */
  function RunKeyBack<V>(decide: (Option<V>, int) -> (V, bool), e: Option<V>, ts: seq<int>): (r: (Option<V>, seq<bool>))
    ensures |r.1| == |ts|
    decreases |ts|
  {
    if ts == [] then (e, [])
    else
      var (e1, o1) := RunKeyBack(decide, e, ts[..|ts| - 1]);
      var (v, ok) := decide(e1, ts[|ts| - 1]);
      (Some(v), o1 + [ok])
  }

  /** Replaying from the front and from the back give the same entry and outcomes. */
  lemma {:induction false} RunKeyBackIsRunKey<V>(decide: (Option<V>, int) -> (V, bool), e: Option<V>, ts: seq<int>)
    ensures RunKeyBack(decide, e, ts) == RunKey(decide, e, ts)
    decreases |ts|
  {
    if ts != [] {
      var pre := ts[..|ts| - 1];
      assert ts == pre + [ts[|ts| - 1]];
      RunKeyBackIsRunKey(decide, e, pre);
      RunKeySnoc(decide, e, pre, ts[|ts| - 1]);
    }
  }

  /** Two customers calling at the same timestamps, `a` before `b` at each one. */
  function Lockstep(a: int, b: int, ts: seq<int>): (calls: seq<Call>)
    ensures |calls| == 2 * |ts|
    decreases |ts|
  {
    if ts == [] then [] else [Call(a, ts[0]), Call(b, ts[0])] + Lockstep(a, b, ts[1..])
  }

  /** Every outcome repeated, as two customers in lockstep see them. */
  function Twice(outs: seq<bool>): (r: seq<bool>)
    ensures |r| == 2 * |outs|
    decreases |outs|
  {
    if outs == [] then [] else [outs[0], outs[0]] + Twice(outs[1..])
  }

  /** Two customers starting from the same entry and calling in lockstep each see, call for
      call, the outcomes of one of them replayed alone. */
  lemma {:induction false} LockstepRun<V>(decide: (Option<V>, int) -> (V, bool), m: map<int, V>, a: int, b: int, ts: seq<int>)
    requires a != b && Lookup(m, a) == Lookup(m, b)
    ensures Run(Lifted(decide), m, Lockstep(a, b, ts)).1 == Twice(RunKey(decide, Lookup(m, a), ts).1)
    decreases |ts|
  {
    if ts != [] {
      var t, rest := ts[0], Lockstep(a, b, ts[1..]);
      var (v, ok) := decide(Lookup(m, a), t);
      var m2 := m[a := v][b := v];
      LockstepPair(decide, m, a, b, t, rest);
      LockstepRun(decide, m2, a, b, ts[1..]);
      assert ts == [t] + ts[1..];
      RunKeyCons(decide, Lookup(m, a), t, ts[1..]);
    }
  }

  /** One lockstep round: both customers get the decision of the first, and end with the
      same entry. */
  lemma LockstepPair<V>(decide: (Option<V>, int) -> (V, bool), m: map<int, V>, a: int, b: int, t: int, rest: seq<Call>)
    requires a != b && Lookup(m, a) == Lookup(m, b)
    ensures var (v, ok) := decide(Lookup(m, a), t);
      var m2 := m[a := v][b := v];
      && Lookup(m2, a) == Lookup(m2, b)
      && Run(Lifted(decide), m, [Call(a, t), Call(b, t)] + rest)
         == (Run(Lifted(decide), m2, rest).0, [ok, ok] + Run(Lifted(decide), m2, rest).1)
  {
    var (v, ok) := decide(Lookup(m, a), t);
    var m1 := m[a := v];
    assert Lookup(m1, b) == Lookup(m, b);
    assert [Call(a, t), Call(b, t)] + rest == [Call(a, t)] + ([Call(b, t)] + rest);
    RunCons(Lifted(decide), m, Call(a, t), [Call(b, t)] + rest);
    RunCons(Lifted(decide), m1, Call(b, t), rest);
    var o := Run(Lifted(decide), m1[b := v], rest).1;
    assert [ok] + ([ok] + o) == [ok, ok] + o;
  }

  /** One customer calling alone at the given timestamps. */
  function Solo(k: int, ts: seq<int>): (calls: seq<Call>)
    ensures |calls| == |ts|
    decreases |ts|
  {
    if ts == [] then [] else [Call(k, ts[0])] + Solo(k, ts[1..])
  }

  /** A customer calling alone sees exactly the replay of its own timestamps. */
  lemma {:induction false} SoloRun<V>(decide: (Option<V>, int) -> (V, bool), m: map<int, V>, k: int, ts: seq<int>)
    ensures Run(Lifted(decide), m, Solo(k, ts)).1 == RunKey(decide, Lookup(m, k), ts).1
    decreases |ts|
  {
    if ts != [] {
      var calls := Solo(k, ts);
      assert calls[0] == Call(k, ts[0]) && calls[1..] == Solo(k, ts[1..]);
      var (v, ok) := decide(Lookup(m, k), ts[0]);
      SoloRun(decide, m[k := v], k, ts[1..]);
    }
  }

  /** Replaying `xs` then `ys` is replaying `ys` from where `xs` left off. */
  lemma {:induction false} RunKeyAppend<V>(decide: (Option<V>, int) -> (V, bool), e: Option<V>, xs: seq<int>, ys: seq<int>)
    ensures var (e1, o1) := RunKey(decide, e, xs);
      RunKey(decide, e, xs + ys) == (RunKey(decide, e1, ys).0, o1 + RunKey(decide, e1, ys).1)
    decreases |xs|
  {
    if xs == [] {
      assert xs + ys == ys;
      assert RunKey(decide, e, xs) == (e, []);
      assert [] + RunKey(decide, e, ys).1 == RunKey(decide, e, ys).1;
    } else {
      var (v, ok) := decide(e, xs[0]);
      assert (xs + ys)[0] == xs[0] && (xs + ys)[1..] == xs[1..] + ys;
      RunKeyAppend(decide, Some(v), xs[1..], ys);
      var (e1, o1) := RunKey(decide, Some(v), xs[1..]);
      assert [ok] + (o1 + RunKey(decide, e1, ys).1) == ([ok] + o1) + RunKey(decide, e1, ys).1;
    }
  }

  /** Replaying a first timestamp and then the rest. */
  lemma RunKeyCons<V>(decide: (Option<V>, int) -> (V, bool), e: Option<V>, t: int, ts: seq<int>)
    ensures var (v, ok) := decide(e, t);
      RunKey(decide, e, [t] + ts) == (RunKey(decide, Some(v), ts).0, [ok] + RunKey(decide, Some(v), ts).1)
  {
    assert ([t] + ts)[0] == t && ([t] + ts)[1..] == ts;
  }

  /** Running a first call and then the rest. */
  lemma RunCons<S>(step: (S, Call) -> (S, bool), s: S, c: Call, calls: seq<Call>)
    ensures var (s1, ok) := step(s, c);
      Run(step, s, [c] + calls) == (Run(step, s1, calls).0, [ok] + Run(step, s1, calls).1)
  {
    assert ([c] + calls)[0] == c && ([c] + calls)[1..] == calls;
  }

  /** The outcomes of both test classes' separate-customer case: a first admitted call,
      then six calls of which the first five are admitted. */
  lemma FiveThenDeny()
    ensures [true] + seq(6, i => i < 5) == [true, true, true, true, true, true, false]
  {
  }

  /** Replaying three calls whose single steps are known. */
  lemma RunThree<S>(step: (S, Call) -> (S, bool), s0: S, c1: Call, c2: Call, c3: Call,
                    s1: S, s2: S, s3: S, o1: bool, o2: bool, o3: bool)
    requires step(s0, c1) == (s1, o1) && step(s1, c2) == (s2, o2) && step(s2, c3) == (s3, o3)
    ensures Run(step, s0, [c1, c2, c3]) == (s3, [o1, o2, o3])
  {
    RunTwo(step, s1, c2, c3, s2, s3, o2, o3);
    assert [c1, c2, c3] == [c1] + [c2, c3];
    RunCons(step, s0, c1, [c2, c3]);
    assert [o1] + [o2, o3] == [o1, o2, o3];
  }

  /** Replaying two calls whose single steps are known. */
  lemma RunTwo<S>(step: (S, Call) -> (S, bool), s0: S, c1: Call, c2: Call, s1: S, s2: S, o1: bool, o2: bool)
    requires step(s0, c1) == (s1, o1) && step(s1, c2) == (s2, o2)
    ensures Run(step, s0, [c1, c2]) == (s2, [o1, o2])
  {
    assert [c1, c2] == [c1] + [c2] && [c2] == [c2] + [];
    RunCons(step, s0, c1, [c2]);
    RunCons(step, s1, c2, []);
    assert Run(step, s2, []) == (s2, []);
    assert [o2] + [] == [o2] && [o1] + [o2] == [o1, o2];
  }
}

=== FILE: leaky_bucket.dfy ===
/** Leaky bucket limiter: each customer has a bucket holding the requests still being
    processed. On every call the bucket first leaks `leakRate` requests per whole
    `leakWindow` elapsed since it was last updated; the call is then admitted, and fills the
    bucket by one, when the bucket is below `maxRequestCapacity`. */
module LeakyBucket {
  import opened KeyedStore
  import JavaInt

  datatype Config = Config(maxRequestCapacity: int, leakRate: int, leakWindow: int)

  /** A customer's bucket: the requests it holds and when it was last updated. */
  datatype Bucket = Bucket(currentRequestCount: int, lastUpdatedAt: int)

  /** customer id -> bucket */
  type Limiter = map<int, Bucket>

  /** The requests that leak out of `b` by time `t`: `leakRate` for every whole `leakWindow`
      elapsed, with Java's truncating division. */
  function Leaked(cfg: Config, b: Bucket, t: int): int
    requires cfg.leakWindow > 0
  {
    JavaInt.Mul(JavaInt.Div(t - b.lastUpdatedAt, cfg.leakWindow), cfg.leakRate)
  }

  /** `processAndLeakRequests`: a new customer gets an empty bucket stamped now; otherwise the
      bucket is left alone unless something leaked, and then it is stamped now and holds
      what remains, never below zero. */
  function Leak(cfg: Config, e: Option<Bucket>, t: int): (b: Bucket)
    requires cfg.leakWindow > 0
    ensures e.None? ==> b == Bucket(0, t)
    ensures e.Some? && Leaked(cfg, e.value, t) <= 0 ==> b == e.value
    ensures e.Some? && Leaked(cfg, e.value, t) > 0 ==>
      var rest := e.value.currentRequestCount - Leaked(cfg, e.value, t);
      && b.lastUpdatedAt == t
      && 0 <= b.currentRequestCount
      && rest <= b.currentRequestCount
      && (b.currentRequestCount == 0 || b.currentRequestCount == rest)
  {
    match e
    case None => Bucket(0, t)
    case Some(prev) =>
      var leaked := Leaked(cfg, prev, t);
      if leaked > 0 then Bucket(JavaInt.Max(0, prev.currentRequestCount - leaked), t) else prev
  }

  /** One call for a customer whose bucket is `e` (None: never seen). */
  function Decide(cfg: Config, e: Option<Bucket>, t: int): (r: (Bucket, bool))
    requires cfg.leakWindow > 0
    ensures var b := Leak(cfg, e, t);
      && (r.1 <==> b.currentRequestCount < cfg.maxRequestCapacity)
      && r.0 == (if r.1 then Bucket(b.currentRequestCount + 1, t) else b)
  {
    var b := Leak(cfg, e, t);
    if b.currentRequestCount < cfg.maxRequestCapacity then (Bucket(b.currentRequestCount + 1, t), true)
    else (b, false)
  }

  function Decider(cfg: Config): (Option<Bucket>, int) -> (Bucket, bool)
    requires cfg.leakWindow > 0
  {
    (e: Option<Bucket>, t: int) => Decide(cfg, e, t)
  }

  /** `shouldAllowRequest(customerId, timestamp)`. */
  function Step(cfg: Config, lim: Limiter, k: int, t: int): (r: (Limiter, bool))
    requires cfg.leakWindow > 0
    ensures k in r.0
    ensures forall j :: j != k ==> Lookup(r.0, j) == Lookup(lim, j)
  {
    Apply(Decider(cfg), lim, k, t)
  }

  /** No time elapsed, nothing leaks. */
  lemma NothingLeaksAtOnce(cfg: Config, b: Bucket)
    requires cfg.leakWindow > 0
    ensures Leaked(cfg, b, b.lastUpdatedAt) == 0
  {
    JavaInt.DivSmall(0, cfg.leakWindow);
  }

  /** A bucket left alone for exactly one `leakWindow` leaks `leakRate` requests. */
  lemma OneWindowLeaksRate(cfg: Config, b: Bucket)
    requires cfg.leakWindow > 0
    ensures Leaked(cfg, b, b.lastUpdatedAt + cfg.leakWindow) == cfg.leakRate
  {
    JavaInt.DivModUnique(cfg.leakWindow, cfg.leakWindow, 1, 0);
    assert JavaInt.Mul(1, cfg.leakRate) == JavaInt.Mul(0, cfg.leakRate) + cfg.leakRate;
  }

  /** The first call of a customer starts an empty bucket stamped now, and is admitted,
      leaving one request in it, exactly when the capacity is positive. */
  lemma NewCustomerStartsEmpty(cfg: Config, lim: Limiter, k: int, t: int)
    requires cfg.leakWindow > 0 && k !in lim
    ensures var (lim', ok) := Step(cfg, lim, k, t);
      && (ok <==> cfg.maxRequestCapacity > 0)
      && lim'[k] == Bucket(if ok then 1 else 0, t)
  {
  }

  /** A denied call stores the leaked bucket and nothing else; when nothing leaked, the
      limiter is left exactly as it was. */
  lemma DenyOnlyLeaks(cfg: Config, lim: Limiter, k: int, t: int)
    requires cfg.leakWindow > 0
    ensures var (lim', ok) := Step(cfg, lim, k, t);
      && (!ok ==> lim' == lim[k := Leak(cfg, Lookup(lim, k), t)])
      && (!ok && k in lim && Leaked(cfg, lim[k], t) <= 0 ==> lim' == lim)
  {
  }

  /** The level stays within `[0, maxRequestCapacity]`. */
  predicate Inv(cfg: Config, b: Bucket)
  {
    0 <= b.currentRequestCount <= cfg.maxRequestCapacity
  }

  /** Every call keeps the level within `[0, maxRequestCapacity]`. */
  lemma StepKeepsInv(cfg: Config, e: Option<Bucket>, t: int)
    requires cfg.leakWindow > 0 && cfg.maxRequestCapacity >= 0
    requires e.Some? ==> Inv(cfg, e.value)
    ensures Inv(cfg, Decide(cfg, e, t).0)
  {
  }

  /** Replaying any timestamps keeps the level within `[0, maxRequestCapacity]`. */
  lemma {:induction false} RunKeepsInv(cfg: Config, e: Option<Bucket>, ts: seq<int>)
    requires cfg.leakWindow > 0 && cfg.maxRequestCapacity >= 0
    requires e.Some? ==> Inv(cfg, e.value)
    ensures var e' := RunKey(Decider(cfg), e, ts).0;
      e'.Some? ==> Inv(cfg, e'.value)
    decreases |ts|
  {
    if ts != [] {
      StepKeepsInv(cfg, e, ts[0]);
      RunKeepsInv(cfg, Some(Decide(cfg, e, ts[0]).0), ts[1..]);
    }
  }

  /** `n` calls at the instant a bucket holding `level` requests was stamped: nothing leaks,
      so the calls are admitted exactly while the bucket is below capacity, and it ends
      holding `level` plus the admits. */
  lemma {:induction false} BurstFills(cfg: Config, level: int, t: int, n: nat)
    requires cfg.leakWindow > 0 && level >= 0
    ensures var (e, outs) := RunKey(Decider(cfg), Some(Bucket(level, t)), seq(n, _ => t));
      && outs == seq(n, i => level + i < cfg.maxRequestCapacity)
      && e == Some(Bucket(if level >= cfg.maxRequestCapacity then level
                          else if level + n <= cfg.maxRequestCapacity then level + n
                          else cfg.maxRequestCapacity, t))
    decreases n
  {
    if n > 0 {
      var d := Decider(cfg);
      var rest := seq(n - 1, _ => t);
      assert seq(n, _ => t) == [t] + rest;
      NothingLeaksAtOnce(cfg, Bucket(level, t));
      var (b1, ok) := Decide(cfg, Some(Bucket(level, t)), t);
      RunKeyCons(d, Some(Bucket(level, t)), t, rest);
      var level' := if ok then level + 1 else level;
      assert b1 == Bucket(level', t);
      BurstFills(cfg, level', t, n - 1);
      BurstOutcomesShift(level, cfg.maxRequestCapacity, n);
    }
  }

  /** The outcomes of a burst, split after its first call. */
  lemma BurstOutcomesShift(level: int, cap: int, n: nat)
    requires n > 0
    ensures [level < cap] + seq(n - 1, i => (if level < cap then level + 1 else level) + i < cap)
         == seq(n, i => level + i < cap)
  {
  }

  /** A new customer calling `n` times at one instant is admitted exactly
      `maxRequestCapacity` times (its first calls) and then denied. */
  lemma FreshBurst(cfg: Config, t: int, n: nat)
    requires cfg.leakWindow > 0
    ensures RunKey(Decider(cfg), None, seq(n, _ => t)).1 == seq(n, i => i < cfg.maxRequestCapacity)
  {
    if n > 0 {
      var d := Decider(cfg);
      var rest := seq(n - 1, _ => t);
      assert seq(n, _ => t) == [t] + rest;
      NothingLeaksAtOnce(cfg, Bucket(0, t));
      assert Decide(cfg, None, t) == Decide(cfg, Some(Bucket(0, t)), t);
      RunKeyCons(d, None, t, rest);
      RunKeyCons(d, Some(Bucket(0, t)), t, rest);
      BurstFills(cfg, 0, t, n);
      assert seq(n, i => 0 + i < cfg.maxRequestCapacity) == seq(n, i => i < cfg.maxRequestCapacity);
    }
  }

  /** Each call of `ts` comes less than one `leakWindow` after the one before it (the first
      one after `from`), and never earlier. */
  predicate CloseCalls(cfg: Config, from: int, ts: seq<int>)
    decreases |ts|
  {
    ts == [] || (from <= ts[0] < from + cfg.leakWindow && CloseCalls(cfg, ts[0], ts[1..]))
  }

  /** Because an admit restamps the bucket, a customer whose calls keep coming less than one
      `leakWindow` apart never leaks while every call is admitted: as long as the calls fit
      below capacity, each is admitted and the level grows by one per call. (A denied call
      does not restamp, so a full bucket leaks again a `leakWindow` after the last admit.) */
  lemma {:induction false} CloseCallsNeverLeak(cfg: Config, b: Bucket, ts: seq<int>)
    requires cfg.leakWindow > 0
    requires CloseCalls(cfg, b.lastUpdatedAt, ts)
    requires b.currentRequestCount + |ts| <= cfg.maxRequestCapacity
    ensures var (e, outs) := RunKey(Decider(cfg), Some(b), ts);
      && outs == seq(|ts|, _ => true)
      && (ts != [] ==> e == Some(Bucket(b.currentRequestCount + |ts|, ts[|ts| - 1])))
    decreases |ts|
  {
    if ts != [] {
      JavaInt.DivSmall(ts[0] - b.lastUpdatedAt, cfg.leakWindow);
      var b1 := Bucket(b.currentRequestCount + 1, ts[0]);
      assert Decide(cfg, Some(b), ts[0]) == (b1, true);
      CloseCallsNeverLeak(cfg, b1, ts[1..]);
      assert [true] + seq(|ts| - 1, _ => true) == seq(|ts|, _ => true);
      if |ts| > 1 {
        assert ts[1..][|ts| - 2] == ts[|ts| - 1];
      }
    }
  }

  /** Calls less than one `leakWindow` apart do leak once the bucket is full: with capacity
      1 leaking one request per 10, calls at 0, 5 and 10 are admitted, denied (leaving the
      stamp 0), then admitted at 10 after a leak measured from the admit at 0. */
  lemma FullBucketLeaksAgain(cfg: Config)
    requires cfg == Config(1, 1, 10)
    ensures CloseCalls(cfg, 0, [5, 10])
    ensures RunKey(Decider(cfg), None, [0, 5, 10]).1 == [true, false, true]
  {
  }

  /** One customer of the interleaved test: with capacity 5 and two requests leaking per
      unit of time, calls once at 11, six times at 12 and once at 13 are admitted,
      admitted five times, denied, then admitted. */
  lemma InterleavedCustomerTrace(cfg: Config)
    requires cfg == Config(5, 2, 1)
    ensures RunKey(Decider(cfg), None, [11, 12, 12, 12, 12, 12, 12, 13]).1
         == [true, true, true, true, true, true, false, true]
  {
    var d := Decider(cfg);
    var burst := seq(5, _ => 12);
    var tail := burst + [13];
    OneWindowLeaksRate(cfg, Bucket(1, 11));
    OneWindowLeaksRate(cfg, Bucket(5, 12));
    BurstFills(cfg, 1, 12, 5);
    var r3 := RunKey(d, Some(Bucket(1, 12)), burst);
    assert r3.0 == Some(Bucket(5, 12));
    assert r3.1 == [true, true, true, true, false];
    RunKeyCons(d, Some(Bucket(5, 12)), 13, []);
    assert [13] + [] == [13];
    var r4 := RunKey(d, Some(Bucket(5, 12)), [13]);
    assert r4.1 == [true];
    RunKeyAppend(d, Some(Bucket(1, 12)), burst, [13]);
    var r2 := RunKey(d, Some(Bucket(1, 12)), tail);
    assert r2.1 == r3.1 + r4.1;
    RunKeyCons(d, Some(Bucket(1, 11)), 12, tail);
    var r1 := RunKey(d, Some(Bucket(1, 11)), [12] + tail);
    assert r1.1 == [true] + r2.1;
    RunKeyCons(d, None, 11, [12] + tail);
    var r0 := RunKey(d, None, [11] + ([12] + tail));
    assert r0.1 == [true] + ([true] + ([true, true, true, true, false] + [true]));
    InterleavedLiterals();
  }

  lemma InterleavedLiterals()
    ensures [11] + ([12] + (seq(5, _ => 12) + [13])) == [11, 12, 12, 12, 12, 12, 12, 13]
    ensures [true] + ([true] + ([true, true, true, true, false] + [true])) == [true, true, true, true, true, true, false, true]
  {
  }

  /** The interleaved test: two customers calling in lockstep at those timestamps each see
      that trace's outcomes. */
  lemma InterleavedCustomers(cfg: Config)
    requires cfg == Config(5, 2, 1)
    ensures var calls := Lockstep(100, 200, [11, 12, 12, 12, 12, 12, 12, 13]);
      Run(Lifted(Decider(cfg)), map[], calls).1 == Twice([true, true, true, true, true, true, false, true])
  {
    LockstepRun(Decider(cfg), map[], 100, 200, [11, 12, 12, 12, 12, 12, 12, 13]);
    InterleavedCustomerTrace(cfg);
  }

  /** The separate test: after one call of customer 100 at 11, customer 200 calling six
      times at 12 is admitted five times and then denied. */
  lemma SeparateCustomers(cfg: Config)
    requires cfg == Config(5, 2, 1)
    ensures var calls := [Call(100, 11)] + Solo(200, seq(6, _ => 12));
      Run(Lifted(Decider(cfg)), map[], calls).1 == [true, true, true, true, true, true, false]
  {
    var d := Decider(cfg);
    var ts := seq(6, _ => 12);
    var m1: Limiter := map[100 := Bucket(1, 11)];
    assert Lifted(d)(map[], Call(100, 11)) == (m1, true);
    RunCons(Lifted(d), map[], Call(100, 11), Solo(200, ts));
    assert Lookup(m1, 200) == None;
    SoloRun(d, m1, 200, ts);
    FreshBurst(cfg, 12, 6);
    FiveThenDeny();
  }

  /** Customers do not influence each other: a customer's outcomes in any interleaving are
      those of its own calls replayed alone. */
  lemma CustomersIndependent(cfg: Config, lim: Limiter, calls: seq<Call>, k: int)
    requires cfg.leakWindow > 0
    ensures OutcomesFor(calls, Run(Lifted(Decider(cfg)), lim, calls).1, k)
         == RunKey(Decider(cfg), Lookup(lim, k), TimesFor(calls, k)).1
  {
    KeysIndependent(Decider(cfg), lim, calls, k);
  }
}

=== FILE: sliding_window_counter.dfy ===
/** Sliding window counter limiter: each customer keeps the request count of the previous
    and of the current aligned window. A call first rolls the windows forward when a full
    window has passed, then admits when the current count plus the previous count, weighted
    by how much of the previous window still overlaps, is below `maxAllowedRequests`. */
module SlidingWindowCounter {
  import opened KeyedStore
  import JavaInt

  datatype Config = Config(windowSize: int, maxAllowedRequests: int)

  /** The `RequestCounter` value class. */
  datatype RequestCounter = RequestCounter(previousWindowCount: int, currentWindowCount: int, currentWindowStart: int)

  /** customer id -> counter */
  type Limiter = map<int, RequestCounter>

  /** The counter `putIfAbsent` installs for a customer seen for the first time. */
  const Initial := RequestCounter(0, 0, 0)

  /** The counter a call works on: the stored one, or the initial one. */
  function Current(e: Option<RequestCounter>): RequestCounter
  {
    match e
    case None => Initial
    case Some(c) => c
  }

  /** Rollover: when at least one full window has passed since the current window's start,
      the start jumps forward by whole windows, the current count becomes the previous count
      if exactly one window was crossed (and is dropped otherwise), and counting restarts. */
  function Rollover(cfg: Config, c: RequestCounter, t: int): (r: RequestCounter)
    requires cfg.windowSize > 0
    ensures t - c.currentWindowStart < cfg.windowSize ==> r == c
    ensures t - c.currentWindowStart >= cfg.windowSize ==>
      && r.currentWindowCount == 0
      && (r.previousWindowCount == if t - c.currentWindowStart < 2 * cfg.windowSize then c.currentWindowCount else 0)
      && c.currentWindowStart < r.currentWindowStart <= t < r.currentWindowStart + cfg.windowSize
  {
    var elapsed := t - c.currentWindowStart;
    if elapsed >= cfg.windowSize then
      var start := c.currentWindowStart + JavaInt.Div(elapsed, cfg.windowSize) * cfg.windowSize;
      RequestCounter(if elapsed >= 2 * cfg.windowSize then 0 else c.currentWindowCount, 0, start)
    else c
  }

  /** The weighted count `(int)(current + previous * (1 - elapsed / windowSize))`, computed
      exactly over the rationals and truncated toward zero like Java's `(int)` cast. */
  function EffectiveCount(cfg: Config, c: RequestCounter, elapsed: int): int
    requires cfg.windowSize > 0
  {
    JavaInt.Div(c.currentWindowCount * cfg.windowSize + c.previousWindowCount * (cfg.windowSize - elapsed), cfg.windowSize)
  }

  /** One call as the source writes it: the weight uses `elapsed`, measured from the window
      start before the rollover. */
  function Decide(cfg: Config, e: Option<RequestCounter>, t: int): (RequestCounter, bool)
    requires cfg.windowSize > 0
  {
    var c := Current(e);
    var r := Rollover(cfg, c, t);
    if EffectiveCount(cfg, r, t - c.currentWindowStart) < cfg.maxAllowedRequests then
      (RequestCounter(r.previousWindowCount, r.currentWindowCount + 1, r.currentWindowStart), true)
    else (r, false)
  }

  function Decider(cfg: Config): (Option<RequestCounter>, int) -> (RequestCounter, bool)
    requires cfg.windowSize > 0
  {
    (e: Option<RequestCounter>, t: int) => Decide(cfg, e, t)
  }

  /** `shouldAllowRequest(customerId, timestamp)`. */
  function Step(cfg: Config, lim: Limiter, k: int, t: int): (r: (Limiter, bool))
    requires cfg.windowSize > 0
    ensures k in r.0
    ensures forall j :: j != k ==> Lookup(r.0, j) == Lookup(lim, j)
  {
    Apply(Decider(cfg), lim, k, t)
  }

  /** A customer seen for the first time behaves exactly as one stored with the counter
      (0, 0, 0), and its entry stays in the map whatever the outcome. */
  lemma NewCustomerStartsEmpty(cfg: Config, lim: Limiter, k: int, t: int)
    requires cfg.windowSize > 0 && k !in lim
    ensures Step(cfg, lim, k, t) == Step(cfg, lim[k := RequestCounter(0, 0, 0)], k, t)
  {
    var v := Decide(cfg, None, t).0;
    assert lim[k := RequestCounter(0, 0, 0)][k := v] == lim[k := v];
  }

  /** The admit test is the exact integer comparison
      `current * windowSize + previous * (windowSize - elapsed) < maxAllowedRequests * windowSize`
      on the rolled-over counts; an admit adds one to the current count and keeps the rest,
      a deny keeps the rolled-over counter. */
  lemma AdmitIffWeightedBelowLimit(cfg: Config, e: Option<RequestCounter>, t: int)
    requires cfg.windowSize > 0 && cfg.maxAllowedRequests >= 1
    ensures var c := Current(e);
      var r := Rollover(cfg, c, t);
      var (c', ok) := Decide(cfg, e, t);
      && (ok <==> r.currentWindowCount * cfg.windowSize + r.previousWindowCount * (cfg.windowSize - (t - c.currentWindowStart))
                    < cfg.maxAllowedRequests * cfg.windowSize)
      && c' == (if ok then r.(currentWindowCount := r.currentWindowCount + 1) else r)
  {
    var c := Current(e);
    var r := Rollover(cfg, c, t);
    var elapsed := t - c.currentWindowStart;
    JavaInt.DivLessIff(r.currentWindowCount * cfg.windowSize + r.previousWindowCount * (cfg.windowSize - elapsed), cfg.windowSize, cfg.maxAllowedRequests);
  }

  /** Window starts stay multiples of `windowSize`: the start only ever moves by whole windows. */
  lemma StartStaysAligned(cfg: Config, e: Option<RequestCounter>, t: int)
    requires cfg.windowSize > 0
    requires e.Some? ==> e.value.currentWindowStart % cfg.windowSize == 0
    ensures Decide(cfg, e, t).0.currentWindowStart % cfg.windowSize == 0
  {
    var c := Current(e);
    var elapsed := t - c.currentWindowStart;
    if elapsed >= cfg.windowSize {
      JavaInt.ModAddMultiple(c.currentWindowStart, JavaInt.Div(elapsed, cfg.windowSize), cfg.windowSize);
    }
  }

  /** A call no earlier than the stored window start leaves the call inside the current
      window: `start <= t < start + windowSize`, and the start never moves back. */
  lemma CallLandsInCurrentWindow(cfg: Config, e: Option<RequestCounter>, t: int)
    requires cfg.windowSize > 0 && t >= Current(e).currentWindowStart
    ensures var s := Decide(cfg, e, t).0.currentWindowStart;
      Current(e).currentWindowStart <= s <= t < s + cfg.windowSize
  {
  }

  /** The per-customer invariant: both counts lie in `[0, maxAllowedRequests]` and the window
      start is aligned. */
  predicate Inv(cfg: Config, c: RequestCounter)
    requires cfg.windowSize > 0
  {
    && 0 <= c.previousWindowCount <= cfg.maxAllowedRequests
    && 0 <= c.currentWindowCount <= cfg.maxAllowedRequests
    && c.currentWindowStart % cfg.windowSize == 0
  }

  /** Every call keeps the invariant; in particular the current count never exceeds
      `maxAllowedRequests`. */
  lemma StepKeepsInv(cfg: Config, e: Option<RequestCounter>, t: int)
    requires cfg.windowSize > 0 && cfg.maxAllowedRequests >= 1
    requires e.Some? ==> Inv(cfg, e.value)
    ensures Inv(cfg, Decide(cfg, e, t).0)
  {
    var c := Current(e);
    var r := Rollover(cfg, c, t);
    var elapsed := t - c.currentWindowStart;
    StartStaysAligned(cfg, e, t);
    AdmitIffWeightedBelowLimit(cfg, e, t);
    if Decide(cfg, e, t).1 && elapsed < cfg.windowSize {
      assert r == c;
      JavaInt.MulLe(0, r.previousWindowCount, cfg.windowSize - elapsed);
      if r.currentWindowCount >= cfg.maxAllowedRequests {
        JavaInt.MulLe(cfg.maxAllowedRequests, r.currentWindowCount, cfg.windowSize);
      }
    }
  }

  /** Replaying any timestamps keeps the invariant. */
  lemma {:induction false} RunKeepsInv(cfg: Config, e: Option<RequestCounter>, ts: seq<int>)
    requires cfg.windowSize > 0 && cfg.maxAllowedRequests >= 1
    requires e.Some? ==> Inv(cfg, e.value)
    ensures var e' := RunKey(Decider(cfg), e, ts).0;
      e'.Some? ==> Inv(cfg, e'.value)
    decreases |ts|
  {
    if ts != [] {
      StepKeepsInv(cfg, e, ts[0]);
      RunKeepsInv(cfg, Some(Decide(cfg, e, ts[0]).0), ts[1..]);
    }
  }

  /** A call that rolls the window over is always admitted: the weight
      `1 - elapsed / windowSize` uses the elapsed time before the rollover, which is at
      least one window, so the previous count can only lower the weighted count. */
  lemma RolloverAlwaysAdmitted(cfg: Config, e: Option<RequestCounter>, t: int)
    requires cfg.windowSize > 0 && cfg.maxAllowedRequests >= 1
    requires Current(e).currentWindowCount >= 0
    requires t - Current(e).currentWindowStart >= cfg.windowSize
    ensures Decide(cfg, e, t).1
  {
    var c := Current(e);
    var r := Rollover(cfg, c, t);
    AdmitIffWeightedBelowLimit(cfg, e, t);
    var w := cfg.windowSize - (t - c.currentWindowStart);
    if r.previousWindowCount > 0 {
      JavaInt.MulLe(w, 0, r.previousWindowCount);
    }
    assert r.previousWindowCount * w <= 0;
    JavaInt.MulLe(1, cfg.maxAllowedRequests, cfg.windowSize);
    assert r.currentWindowCount * cfg.windowSize == 0;
  }

  /** The same call with the weight measured from the rolled-over window start, so that the
      previous window's count fades out linearly over the current window. */
  function DecideIntended(cfg: Config, e: Option<RequestCounter>, t: int): (RequestCounter, bool)
    requires cfg.windowSize > 0
  {
    var r := Rollover(cfg, Current(e), t);
    if EffectiveCount(cfg, r, t - r.currentWindowStart) < cfg.maxAllowedRequests then
      (RequestCounter(r.previousWindowCount, r.currentWindowCount + 1, r.currentWindowStart), true)
    else (r, false)
  }

  function IntendedDecider(cfg: Config): (Option<RequestCounter>, int) -> (RequestCounter, bool)
    requires cfg.windowSize > 0
  {
    (e: Option<RequestCounter>, t: int) => DecideIntended(cfg, e, t)
  }

  /** `shouldAllowRequest` with the weight measured from the rolled-over window start. */
  function StepIntended(cfg: Config, lim: Limiter, k: int, t: int): (r: (Limiter, bool))
    requires cfg.windowSize > 0
    ensures k in r.0
    ensures forall j :: j != k ==> Lookup(r.0, j) == Lookup(lim, j)
  {
    Apply(IntendedDecider(cfg), lim, k, t)
  }

  /** With the intended weight, a call at or after the window start is admitted exactly when
      `current * windowSize + previous * (windowSize - d) < maxAllowedRequests * windowSize`,
      where `d` is its offset into the current window and the previous window's weight
      `windowSize - d` is positive and at most one full window. */
  lemma IntendedWeighsPrevious(cfg: Config, e: Option<RequestCounter>, t: int)
    requires cfg.windowSize > 0 && cfg.maxAllowedRequests >= 1
    requires t >= Current(e).currentWindowStart
    ensures var r := Rollover(cfg, Current(e), t);
      var d := t - r.currentWindowStart;
      && 0 < cfg.windowSize - d <= cfg.windowSize
      && (DecideIntended(cfg, e, t).1 <==>
          r.currentWindowCount * cfg.windowSize + r.previousWindowCount * (cfg.windowSize - d)
            < cfg.maxAllowedRequests * cfg.windowSize)
  {
    var r := Rollover(cfg, Current(e), t);
    var d := t - r.currentWindowStart;
    JavaInt.DivLessIff(r.currentWindowCount * cfg.windowSize + r.previousWindowCount * (cfg.windowSize - d), cfg.windowSize, cfg.maxAllowedRequests);
  }

  /** With the intended weight, once a window has filled up, a call that opens the next
      window exactly at its start is denied: the previous window still counts in full. */
  lemma IntendedDeniesRightAfterFullWindow(cfg: Config, c: RequestCounter, t: int)
    requires cfg.windowSize > 0 && cfg.maxAllowedRequests >= 1
    requires c.currentWindowCount >= cfg.maxAllowedRequests
    requires t == c.currentWindowStart + cfg.windowSize
    ensures !DecideIntended(cfg, Some(c), t).1
  {
    var r := Rollover(cfg, c, t);
    assert r.currentWindowStart == t && r.previousWindowCount == c.currentWindowCount;
    IntendedWeighsPrevious(cfg, Some(c), t);
    JavaInt.MulLe(cfg.maxAllowedRequests, c.currentWindowCount, cfg.windowSize);
  }

  /** The input that shows the difference: windows of 10 with a limit of 5, a customer that
      used all 5 requests in the window starting at 0, calling again at 10. As written the
      call is admitted (the full previous window weighs nothing); as intended it is denied. */
  lemma BoundaryCallIgnoresFullPreviousWindow()
    ensures Decide(Config(10, 5), Some(RequestCounter(0, 5, 0)), 10) == (RequestCounter(5, 1, 10), true)
    ensures DecideIntended(Config(10, 5), Some(RequestCounter(0, 5, 0)), 10) == (RequestCounter(5, 0, 10), false)
  {
    var cfg, c := Config(10, 5), RequestCounter(0, 5, 0);
    assert JavaInt.Div(10, 10) == 1;
    assert Rollover(cfg, c, 10) == RequestCounter(5, 0, 10);
    assert JavaInt.Div(0, 10) == 0;
    assert JavaInt.Div(50, 10) == 5;
  }

  /** The intended decision keeps the same invariant. */
  lemma IntendedKeepsInv(cfg: Config, e: Option<RequestCounter>, t: int)
    requires cfg.windowSize > 0 && cfg.maxAllowedRequests >= 1
    requires e.Some? ==> Inv(cfg, e.value)
    ensures Inv(cfg, DecideIntended(cfg, e, t).0)
  {
    var c := Current(e);
    var r := Rollover(cfg, c, t);
    StartStaysAligned(cfg, e, t);
    assert Decide(cfg, e, t).0.currentWindowStart == r.currentWindowStart;
    var d := t - r.currentWindowStart;
    var n := r.currentWindowCount * cfg.windowSize + r.previousWindowCount * (cfg.windowSize - d);
    JavaInt.DivLessIff(n, cfg.windowSize, cfg.maxAllowedRequests);
    if DecideIntended(cfg, e, t).1 && r.currentWindowCount >= cfg.maxAllowedRequests {
      JavaInt.MulLe(0, r.previousWindowCount, cfg.windowSize - d);
      JavaInt.MulLe(cfg.maxAllowedRequests, r.currentWindowCount, cfg.windowSize);
    }
  }

  /** Customers do not influence each other. */
  lemma CustomersIndependent(cfg: Config, lim: Limiter, calls: seq<Call>, k: int)
    requires cfg.windowSize > 0
    ensures OutcomesFor(calls, Run(Lifted(Decider(cfg)), lim, calls).1, k)
         == RunKey(Decider(cfg), Lookup(lim, k), TimesFor(calls, k)).1
  {
    KeysIndependent(Decider(cfg), lim, calls, k);
  }
}

=== FILE: sliding_window_log.dfy ===
/** Sliding window log limiter: each customer keeps a FIFO log of admitted timestamps.
    A call evicts from the front every timestamp older than `timestamp - windowSize`,
    then admits (and appends) when fewer than `maxAllowedRequests` remain. */
module SlidingWindowLog {
  import opened KeyedStore

  datatype Config = Config(maxAllowedRequests: int, windowSize: int)

  /** A customer's log, oldest timestamp first. */
  type Log = seq<int>

  /** customer id -> log */
  type Limiter = map<int, Log>

  /** Pops entries from the front while the head is strictly older than `cutoff`. The result
      is the suffix left once the maximal prefix of entries below `cutoff` is removed. */
  function Evict(log: Log, cutoff: int): (r: Log)
    ensures |r| <= |log|
    ensures r != [] ==> r[0] >= cutoff
    decreases |log|
  {
    if log != [] && log[0] < cutoff then Evict(log[1..], cutoff) else log
  }

  /** What eviction removes and keeps: it keeps a suffix of the log, and every entry it
      removed was older than the cutoff. */
  lemma {:induction false} EvictIsSuffix(log: Log, cutoff: int)
    ensures forall i :: 0 <= i < |Evict(log, cutoff)| ==> Evict(log, cutoff)[i] == log[|log| - |Evict(log, cutoff)| + i]
    ensures forall i :: 0 <= i < |log| - |Evict(log, cutoff)| ==> log[i] < cutoff
    decreases |log|
  {
    if log != [] && log[0] < cutoff {
      var tail := log[1..];
      EvictIsSuffix(tail, cutoff);
      var r := Evict(tail, cutoff);
      assert Evict(log, cutoff) == r;
      forall i | 0 <= i < |r|
        ensures r[i] == log[|log| - |r| + i]
      {
        assert r[i] == tail[|tail| - |r| + i];
      }
      forall i | 0 <= i < |log| - |r|
        ensures log[i] < cutoff
      {
        if i > 0 {
          assert log[i] == tail[i - 1];
        }
      }
    }
  }

  /** The eviction loop written as the source writes it, over a queue. */
  method EvictFront(log: Log, cutoff: int) returns (r: Log)
    ensures r == Evict(log, cutoff)
  {
    r := log;
    while r != [] && r[0] < cutoff
      invariant Evict(r, cutoff) == Evict(log, cutoff)
      decreases |r|
    {
      r := r[1..];
    }
  }

  /** Reference definition of a window: the entries of `s` that are at least `lo`, in order. */
  function Recent(s: seq<int>, lo: int): seq<int>
    decreases |s|
  {
    if s == [] then [] else (if s[0] >= lo then [s[0]] else []) + Recent(s[1..], lo)
  }

  /** One call for a customer whose current log is `e` (None: never seen). */
  function Decide(cfg: Config, e: Option<Log>, t: int): (Log, bool)
  {
    match e
    case None => ([t], true)
    case Some(log) =>
      var kept := Evict(log, t - cfg.windowSize);
      if |kept| < cfg.maxAllowedRequests then (kept + [t], true) else (kept, false)
  }

  function Decider(cfg: Config): (Option<Log>, int) -> (Log, bool)
  {
    (e: Option<Log>, t: int) => Decide(cfg, e, t)
  }

  /** `shouldAllowRequest(customerId, timestamp)`. */
  function Step(cfg: Config, lim: Limiter, k: int, t: int): (r: (Limiter, bool))
    ensures k in r.0
    ensures k !in lim ==> r.1 && r.0[k] == [t]
    ensures k in lim ==>
      var kept := Evict(lim[k], t - cfg.windowSize);
      && (r.1 <==> |kept| < cfg.maxAllowedRequests)
      && r.0[k] == (if r.1 then kept + [t] else kept)
    ensures forall j :: j != k ==> Lookup(r.0, j) == Lookup(lim, j)
  {
    Apply(Decider(cfg), lim, k, t)
  }

  /** The first call for a customer is admitted whatever the limit, and starts the log `[t]`. */
  lemma FirstCallAdmitted(cfg: Config, lim: Limiter, k: int, t: int)
    requires k !in lim
    ensures Step(cfg, lim, k, t) == (lim[k := [t]], true)
  {
  }

  /** With at least one allowed request, a call never grows a log beyond the limit. */
  lemma LengthBound(cfg: Config, lim: Limiter, k: int, t: int)
    requires cfg.maxAllowedRequests >= 1
    requires forall j :: j in lim ==> |lim[j]| <= cfg.maxAllowedRequests
    ensures var (lim', _) := Step(cfg, lim, k, t);
      forall j :: j in lim' ==> |lim'[j]| <= cfg.maxAllowedRequests
  {
  }

  /** Filtering one more timestamp at or after the cutoff appends it. */
  lemma {:induction false} RecentSnoc(s: seq<int>, lo: int, t: int)
    ensures Recent(s + [t], lo) == Recent(s, lo) + (if t >= lo then [t] else [])
    decreases |s|
  {
    if s == [] {
      assert [t][1..] == [];
    } else {
      assert (s + [t])[0] == s[0];
      assert (s + [t])[1..] == s[1..] + [t];
      RecentSnoc(s[1..], lo, t);
    }
  }

  lemma {:induction false} RecentAll(s: seq<int>, lo: int)
    requires forall i :: 0 <= i < |s| ==> s[i] >= lo
    ensures Recent(s, lo) == s
    decreases |s|
  {
    if s != [] {
      RecentAll(s[1..], lo);
    }
  }

  /** On a sorted log, eviction keeps exactly the entries at or after the cutoff (so an
      entry equal to the cutoff survives). */
  lemma {:induction false} EvictSortedIsRecent(log: Log, cutoff: int)
    requires NonDecreasing(log)
    ensures Evict(log, cutoff) == Recent(log, cutoff)
    decreases |log|
  {
    if log != [] {
      if log[0] < cutoff {
        EvictSortedIsRecent(log[1..], cutoff);
      } else {
        RecentAll(log, cutoff);
      }
    }
  }

  /** Evicting at a later cutoff from the window of sorted timestamps `a` at `lo` gives
      their window at the new cutoff. */
  lemma {:induction false} EvictWindow(a: seq<int>, lo: int, cutoff: int)
    requires NonDecreasing(a) && lo <= cutoff
    ensures Evict(Recent(a, lo), cutoff) == Recent(a, cutoff)
    decreases |a|
  {
    if a != [] {
      if a[0] < lo {
        EvictWindow(a[1..], lo, cutoff);
        assert Recent(a, lo) == [] + Recent(a[1..], lo) == Recent(a[1..], lo);
        assert Recent(a, cutoff) == [] + Recent(a[1..], cutoff) == Recent(a[1..], cutoff);
      } else if a[0] < cutoff {
        EvictWindow(a[1..], lo, cutoff);
        var w := Recent(a[1..], lo);
        assert Recent(a, lo) == [a[0]] + w;
        assert ([a[0]] + w)[1..] == w;
      } else {
        assert forall i :: 0 <= i < |a| ==> a[0] <= a[i];
        RecentAll(a, lo);
        RecentAll(a, cutoff);
      }
    }
  }

  /** The per-customer invariant at the latest call `last`: the admitted timestamps `a`
      are sorted and no later than `last`, the log is exactly those at or after `lo`, and
      it holds at most `limit` entries. */
  ghost predicate WindowInv(log: Log, a: seq<int>, lo: int, limit: int, last: int)
  {
    && Chained(a)
    && (a != [] ==> a[|a| - 1] <= last)
    && log == Recent(a, lo)
    && |log| <= limit
  }

  /** One call at `t`, no earlier than the previous call `p`, keeps the invariant: the
      log moves to the window at `c = t - windowSize`, and an admitted `t` joins both the
      log and the admitted timestamps. */
  lemma DecideKeepsWindow(cfg: Config, log: Log, a: seq<int>, lo: int, p: int, c: int, t: int)
    requires c == t - cfg.windowSize && lo <= c <= t
    requires WindowInv(log, a, lo, cfg.maxAllowedRequests, p) && p <= t
    ensures var d := Decide(cfg, Some(log), t);
      WindowInv(d.0, a + (if d.1 then [t] else []), c, cfg.maxAllowedRequests, t)
  {
    var kept := Evict(log, c);
    NonDecreasingIsChained(a);
    EvictWindow(a, lo, c);
    RecentSnoc(a, c, t);
    assert (a + [t])[..|a|] == a;
    assert a + [] == a;
  }

  /** The invariant a customer's replayed log keeps at its latest call `last`. */
  ghost predicate TrailingWindow(cfg: Config, ts: seq<int>, last: int)
  {
    var (e, outs) := RunKeyBack(Decider(cfg), None, ts);
    e.Some? && WindowInv(e.value, AdmittedTimes(ts, outs), last - cfg.windowSize, cfg.maxAllowedRequests, last)
  }

  /** Replaying one more call at `t`, no earlier than the previous call `p`, keeps the
      trailing-window invariant. */
  lemma TrailingWindowSnoc(cfg: Config, pre: seq<int>, p: int, t: int)
    requires cfg.windowSize >= 0 && p <= t
    requires TrailingWindow(cfg, pre, p)
    ensures TrailingWindow(cfg, pre + [t], t)
  {
    var (e1, o1) := RunKeyBack(Decider(cfg), None, pre);
    var a := AdmittedTimes(pre, o1);
    var (v, ok) := Decide(cfg, e1, t);
    assert (pre + [t])[..|pre|] == pre;
    assert RunKeyBack(Decider(cfg), None, pre + [t]) == (Some(v), o1 + [ok]);
    AdmittedSnoc(pre, o1, t, ok);
    DecideKeepsWindow(cfg, e1.value, a, p - cfg.windowSize, p, t - cfg.windowSize, t);
  }

  /** Induction over the replay: every non-decreasing, non-empty trace ends in the
      trailing-window invariant at its latest call. */
  lemma {:induction false} LogIsTrailingWindow(cfg: Config, ts: seq<int>)
    requires cfg.maxAllowedRequests >= 1 && cfg.windowSize >= 0
    requires ts != [] && Chained(ts)
    ensures TrailingWindow(cfg, ts, ts[|ts| - 1])
    decreases |ts|
  {
    var pre, last := ts[..|ts| - 1], ts[|ts| - 1];
    assert ts == pre + [last];
    if pre == [] {
      assert ts[..0] == [];
      assert RunKeyBack(Decider(cfg), None, ts) == (Some([last]), [] + [true]);
      AdmittedSnoc(pre, [], last, true);
    } else {
      var p := pre[|pre| - 1];
      assert p == ts[|ts| - 2];
      LogIsTrailingWindow(cfg, pre);
      TrailingWindowSnoc(cfg, pre, p, last);
    }
  }

  /** The trailing-window guarantee: replaying a customer's non-decreasing timestamps, the
      final log is exactly its admitted timestamps no older than `last - windowSize`
      (`last` the latest call), and there are at most `maxAllowedRequests` of them. */
  lemma TrailingWindowBound(cfg: Config, ts: seq<int>)
    requires cfg.maxAllowedRequests >= 1 && cfg.windowSize >= 0
    requires ts != [] && NonDecreasing(ts)
    ensures var (e, outs) := RunKey(Decider(cfg), None, ts);
      var window := Recent(AdmittedTimes(ts, outs), ts[|ts| - 1] - cfg.windowSize);
      e == Some(window) && |window| <= cfg.maxAllowedRequests
  {
    NonDecreasingIsChained(ts);
    LogIsTrailingWindow(cfg, ts);
    RunKeyBackIsRunKey(Decider(cfg), None, ts);
  }

  /** Customers do not influence each other: a customer's outcomes in any interleaving are
      those of its own calls replayed alone. */
  lemma CustomersIndependent(cfg: Config, lim: Limiter, calls: seq<Call>, k: int)
    ensures OutcomesFor(calls, Run(Lifted(Decider(cfg)), lim, calls).1, k)
         == RunKey(Decider(cfg), Lookup(lim, k), TimesFor(calls, k)).1
  {
    KeysIndependent(Decider(cfg), lim, calls, k);
  }
}

=== FILE: token_bucket.dfy ===
/** Token bucket limiter: each customer has a bucket of at most `maxTokens` tokens that is
    refilled lazily, `(timestamp - lastRefillTime) * refillRate` tokens at a time, on every
    call; a call is admitted, and spends one token, when the refilled bucket is not empty. */
module TokenBucket {
  import opened KeyedStore
  import JavaInt

  datatype Config = Config(maxTokens: int, refillRate: int)

  /** The source keeps each customer's bucket as a map with the single entry
      `lastRefillTime -> tokens`; the model keeps the pair. */
  datatype Bucket = Bucket(lastRefillTime: int, tokens: int)

  /** customer id -> bucket */
  type Limiter = map<int, Bucket>

  /** The source's representation of a bucket. */
  function AsMap(b: Bucket): map<int, int>
  {
    map[b.lastRefillTime := b.tokens]
  }

  /** `refillTokens`: a new customer gets a full bucket stamped now; otherwise nothing
      changes unless the refill amount `(timestamp - lastRefillTime) * refillRate` is
      positive, and then the bucket is stamped now and holds the earned tokens on top of the
      old ones, or is full. */
  function Refill(cfg: Config, e: Option<Bucket>, t: int): (b: Bucket)
    ensures e.None? ==> b == Bucket(t, cfg.maxTokens)
    ensures e.Some? ==>
      var refill := JavaInt.Mul(t - e.value.lastRefillTime, cfg.refillRate);
      && (refill <= 0 ==> b == e.value)
      && (refill > 0 ==>
            && b.lastRefillTime == t
            && b.tokens <= cfg.maxTokens
            && b.tokens <= e.value.tokens + refill
            && (b.tokens == cfg.maxTokens || b.tokens == e.value.tokens + refill))
  {
    match e
    case None => Bucket(t, cfg.maxTokens)
    case Some(prev) =>
      var refill := JavaInt.Mul(t - prev.lastRefillTime, cfg.refillRate);
      if refill > 0 then Bucket(t, JavaInt.Min(prev.tokens + refill, cfg.maxTokens)) else prev
  }

  /** One call for a customer whose bucket is `e` (None: never seen). */
  function Decide(cfg: Config, e: Option<Bucket>, t: int): (r: (Bucket, bool))
    ensures var b := Refill(cfg, e, t);
      && (r.1 <==> b.tokens > 0)
      && r.0.lastRefillTime == b.lastRefillTime
      && r.0.tokens == (if r.1 then b.tokens - 1 else b.tokens)
  {
    var b := Refill(cfg, e, t);
    if b.tokens > 0 then (b.(tokens := b.tokens - 1), true) else (b, false)
  }

  function Decider(cfg: Config): (Option<Bucket>, int) -> (Bucket, bool)
  {
    (e: Option<Bucket>, t: int) => Decide(cfg, e, t)
  }

  /** `shouldAllowRequest(customerId, timestamp)`. */
  function Step(cfg: Config, lim: Limiter, k: int, t: int): (r: (Limiter, bool))
    ensures k in r.0
    ensures forall j :: j != k ==> Lookup(r.0, j) == Lookup(lim, j)
  {
    Apply(Decider(cfg), lim, k, t)
  }

  /** The source's map operations on the single-entry map: a refill removes the old stamp
      and puts the new one, an admit overwrites the entry under the stamp it found. The
      map those operations leave has exactly one entry, and it is the model's bucket. */
  lemma MapStaysSingleEntry(cfg: Config, b: Bucket, t: int)
    ensures var b' := Refill(cfg, Some(b), t);
      var refilled := if b' != b then (AsMap(b) - {b.lastRefillTime})[t := b'.tokens] else AsMap(b);
      var (r, ok) := Decide(cfg, Some(b), t);
      var stored := if ok then refilled[b'.lastRefillTime := b'.tokens - 1] else refilled;
      && refilled == AsMap(b')
      && stored == AsMap(r)
      && |stored.Keys| == 1
  {
    var b' := Refill(cfg, Some(b), t);
    assert AsMap(b) - {b.lastRefillTime} == map[];
    var r := Decide(cfg, Some(b), t).0;
    assert AsMap(r).Keys == {r.lastRefillTime};
  }

  /** The first call of a customer starts a full bucket stamped now and is admitted exactly
      when `maxTokens` is positive. */
  lemma NewCustomerGetsFullBucket(cfg: Config, lim: Limiter, k: int, t: int)
    requires k !in lim
    ensures var (lim', ok) := Step(cfg, lim, k, t);
      && (ok <==> cfg.maxTokens > 0)
      && lim'[k] == Bucket(t, if ok then cfg.maxTokens - 1 else cfg.maxTokens)
  {
  }

  /** Tokens stay within `[0, maxTokens]`. */
  predicate Inv(cfg: Config, b: Bucket)
  {
    0 <= b.tokens <= cfg.maxTokens
  }

  /** Every call keeps the token count within `[0, maxTokens]`. */
  lemma StepKeepsInv(cfg: Config, e: Option<Bucket>, t: int)
    requires cfg.maxTokens >= 0
    requires e.Some? ==> Inv(cfg, e.value)
    ensures Inv(cfg, Decide(cfg, e, t).0)
  {
  }

  /** Replaying any timestamps keeps the token count within `[0, maxTokens]`. */
  lemma {:induction false} RunKeepsInv(cfg: Config, e: Option<Bucket>, ts: seq<int>)
    requires cfg.maxTokens >= 0
    requires e.Some? ==> Inv(cfg, e.value)
    ensures var e' := RunKey(Decider(cfg), e, ts).0;
      e'.Some? ==> Inv(cfg, e'.value)
    decreases |ts|
  {
    if ts != [] {
      StepKeepsInv(cfg, e, ts[0]);
      RunKeepsInv(cfg, Some(Decide(cfg, e, ts[0]).0), ts[1..]);
    }
  }

  /** `n` calls at the same instant `t` on a bucket holding `k` tokens, that the instant
      does not refill, are admitted exactly while tokens remain. */
  lemma {:induction false} BurstDrains(cfg: Config, last: int, k: int, t: int, n: nat)
    requires k >= 0 && JavaInt.Mul(t - last, cfg.refillRate) <= 0
    ensures RunKey(Decider(cfg), Some(Bucket(last, k)), seq(n, _ => t)).1 == seq(n, i => i < k)
    decreases n
  {
    if n > 0 {
      var ts := seq(n, _ => t);
      assert ts[0] == t && ts[1..] == seq(n - 1, _ => t);
      var (b, ok) := Decide(cfg, Some(Bucket(last, k)), t);
      if k > 0 {
        assert b == Bucket(last, k - 1) && ok;
        BurstDrains(cfg, last, k - 1, t, n - 1);
        assert [true] + seq(n - 1, i => i < k - 1) == seq(n, i => i < k);
      } else {
        assert b == Bucket(last, k) && !ok;
        BurstDrains(cfg, last, k, t, n - 1);
        assert [false] + seq(n - 1, i => i < k) == seq(n, i => i < k);
      }
    }
  }

  /** A new customer calling `n` times at one instant is admitted exactly `maxTokens` times
      (its first `maxTokens` calls) and then denied. */
  lemma FreshBurst(cfg: Config, t: int, n: nat)
    requires cfg.maxTokens >= 0
    ensures RunKey(Decider(cfg), None, seq(n, _ => t)).1 == seq(n, i => i < cfg.maxTokens)
  {
    if n > 0 {
      var ts := seq(n, _ => t);
      assert ts[0] == t && ts[1..] == seq(n - 1, _ => t);
      var (b, ok) := Decide(cfg, None, t);
      if cfg.maxTokens > 0 {
        BurstDrains(cfg, t, cfg.maxTokens - 1, t, n - 1);
        assert [true] + seq(n - 1, i => i < cfg.maxTokens - 1) == seq(n, i => i < cfg.maxTokens);
      } else {
        BurstDrains(cfg, t, cfg.maxTokens, t, n - 1);
        assert [false] + seq(n - 1, i => i < cfg.maxTokens) == seq(n, i => i < cfg.maxTokens);
      }
    }
  }

  /** The budget of a bucket `b` after `n` admits over calls `ts`: within bounds, stamped
      between the first and the latest call, and tokens plus admits within the full bucket
      plus what the time up to the last refill could add. */
  ghost predicate BudgetOf(cfg: Config, ts: seq<int>, b: Bucket, n: int)
    requires ts != []
  {
    && Inv(cfg, b)
    && ts[0] <= b.lastRefillTime <= ts[|ts| - 1]
    && b.tokens + n <= cfg.maxTokens + JavaInt.Mul(b.lastRefillTime - ts[0], cfg.refillRate)
  }

  /** The invariant of a customer's replayed bucket. */
  ghost predicate Budget(cfg: Config, ts: seq<int>)
    requires ts != []
  {
    var r := RunKeyBack(Decider(cfg), None, ts);
    r.0.Some? && BudgetOf(cfg, ts, r.0.value, Admits(r.1))
  }

  /** One more call, no earlier than the previous one, keeps the budget. */
  lemma BudgetSnoc(cfg: Config, pre: seq<int>, t: int)
    requires cfg.maxTokens >= 0 && cfg.refillRate >= 0
    requires pre != [] && pre[|pre| - 1] <= t && Budget(cfg, pre)
    ensures Budget(cfg, pre + [t])
  {
    var (e1, o1) := RunKeyBack(Decider(cfg), None, pre);
    var b := e1.value;
    var (b', ok) := Decide(cfg, e1, t);
    assert (pre + [t])[..|pre|] == pre;
    assert RunKeyBack(Decider(cfg), None, pre + [t]) == (Some(b'), o1 + [ok]);
    AdmittedSnoc(pre, o1, t, ok);
    assert (pre + [t])[0] == pre[0] && (pre + [t])[|pre|] == t;
    JavaInt.MulAddsUp(b.lastRefillTime - pre[0], t - b.lastRefillTime, cfg.refillRate);
  }

  /** Budget of any non-decreasing replay. */
  lemma {:induction false} BudgetHolds(cfg: Config, ts: seq<int>)
    requires cfg.maxTokens >= 0 && cfg.refillRate >= 0
    requires ts != [] && Chained(ts)
    ensures Budget(cfg, ts)
    decreases |ts|
  {
    var pre, last := ts[..|ts| - 1], ts[|ts| - 1];
    assert ts == pre + [last];
    if pre == [] {
      var (b, ok) := Decide(cfg, None, last);
      assert ts[..0] == [];
      assert RunKeyBack(Decider(cfg), None, ts) == (Some(b), [] + [ok]);
      AdmittedSnoc(pre, [], last, ok);
    } else {
      BudgetHolds(cfg, pre);
      BudgetSnoc(cfg, pre, last);
    }
  }

  /** The budget invariant, read off a bucket `b` after `n` admits, bounds `n` by what the
      whole span of the calls earns. */
  lemma BudgetGivesBound(cfg: Config, ts: seq<int>, b: Bucket, n: int)
    requires cfg.refillRate >= 0 && ts != []
    requires BudgetOf(cfg, ts, b, n)
    ensures n <= cfg.maxTokens + JavaInt.Mul(ts[|ts| - 1] - ts[0], cfg.refillRate)
  {
    JavaInt.MulGrows(b.lastRefillTime - ts[0], ts[|ts| - 1] - ts[0], cfg.refillRate);
  }

  lemma ChainedAdmitsWithinBudget(cfg: Config, ts: seq<int>)
    requires cfg.maxTokens >= 0 && cfg.refillRate >= 0
    requires ts != [] && Chained(ts)
    ensures Admits(RunKeyBack(Decider(cfg), None, ts).1) <= cfg.maxTokens + JavaInt.Mul(ts[|ts| - 1] - ts[0], cfg.refillRate)
  {
    BudgetHolds(cfg, ts);
    BoundFromBudget(cfg, ts);
  }

  lemma BoundFromBudget(cfg: Config, ts: seq<int>)
    requires cfg.refillRate >= 0
    requires ts != [] && Budget(cfg, ts)
    ensures Admits(RunKeyBack(Decider(cfg), None, ts).1) <= cfg.maxTokens + JavaInt.Mul(ts[|ts| - 1] - ts[0], cfg.refillRate)
  {
    var r := RunKeyBack(Decider(cfg), None, ts);
    BudgetGivesBound(cfg, ts, r.0.value, Admits(r.1));
  }

  /** Over any non-decreasing sequence of calls by a new customer, from `t0` to `tn`, at
      most `maxTokens + (tn - t0) * refillRate` calls are admitted (`JavaInt.Mul` is that
      product, by `JavaInt.MulIsProduct`). */
  lemma AdmitsWithinBudget(cfg: Config, ts: seq<int>)
    requires cfg.maxTokens >= 0 && cfg.refillRate >= 0
    requires ts != [] && NonDecreasing(ts)
    ensures Admits(RunKey(Decider(cfg), None, ts).1) <= cfg.maxTokens + JavaInt.Mul(ts[|ts| - 1] - ts[0], cfg.refillRate)
  {
    NonDecreasingIsChained(ts);
    ChainedAdmitsWithinBudget(cfg, ts);
    RunKeyBackIsRunKey(Decider(cfg), None, ts);
  }

  /** Customers do not influence each other: neither the outcomes of a customer's calls
      nor the bucket it ends with depend on other customers' calls. */
  lemma CustomersIndependent(cfg: Config, lim: Limiter, calls: seq<Call>, k: int)
    ensures OutcomesFor(calls, Run(Lifted(Decider(cfg)), lim, calls).1, k)
         == RunKey(Decider(cfg), Lookup(lim, k), TimesFor(calls, k)).1
    ensures Lookup(Run(Lifted(Decider(cfg)), lim, calls).0, k)
         == RunKey(Decider(cfg), Lookup(lim, k), TimesFor(calls, k)).0
  {
    KeysIndependent(Decider(cfg), lim, calls, k);
  }
}

=== FILE: windows.dfy ===
/** Fixed windows of one size laid out from origin 0, as both fixed-window limiters use
    them: which times are window starts, the window holding a timestamp, and how far apart
    two window starts are. */
module Windows {
  import JavaInt

  /** `w` is a window start: a multiple of the window size. */
  predicate Aligned(size: int, w: int)
    requires size > 0
  {
    w % size == 0
  }

  /** The start of the window holding `t`, rounding down, also before the origin. */
  function WindowOf(size: int, t: int): (w: int)
    requires size > 0
    ensures Aligned(size, w) && w <= t < w + size
  {
    JavaInt.Euclid(t, size);
    JavaInt.ModAddMultiple(0, t / size, size);
    (t / size) * size
  }

  /** For a non-negative timestamp the window start is the code's
      `(timestamp / windowSize) * windowSize`, in Java's arithmetic. */
  lemma WindowOfIsJavaStart(size: int, t: int)
    requires size > 0 && t >= 0
    ensures WindowOf(size, t) == JavaInt.Mul(JavaInt.Div(t, size), size)
  {
    JavaInt.Euclid(t, size);
    JavaInt.MulIsProduct(t / size, size);
  }

  /** An aligned `w` with `w <= t < w + size` is the start of `t`'s window. */
  lemma WindowOfUnique(size: int, w: int, t: int)
    requires size > 0
    requires Aligned(size, w) && w <= t < w + size
    ensures WindowOf(size, t) == w
  {
    JavaInt.Euclid(w, size);
    JavaInt.DivModUnique(t, size, w / size, t - w);
  }

  /** Two different window starts are at least a window apart. */
  lemma AlignedApart(size: int, a: int, b: int)
    requires size > 0 && Aligned(size, a) && Aligned(size, b) && a < b
    ensures a + size <= b
  {
    JavaInt.Euclid(a, size);
    JavaInt.Euclid(b, size);
    if b / size <= a / size {
      JavaInt.MulLe(b / size, a / size, size);
    } else {
      JavaInt.MulLe(a / size + 1, b / size, size);
    }
  }
}
